=== FILE: README.md ===
# AMOSA in Dafny

This project models the optimization engine of pyAMOSA, which implements
Archived Multi-Objective Simulated Annealing. The engine lives in `AMOSA.py`.
A *problem* declares:

- its decision variables, each INTEGER or REAL, with a lower and an upper bound;
- its numbers of objectives and constraints;
- an `evaluate` operation.

A *point* is a dictionary with three fields: the decision vector `x`, the
objectives `f` and, for constrained problems only, the constraint values `g`.
The engine keeps an *archive* of points. In that archive no member dominates
another, and no two members share a decision vector. The engine fills the
archive in two phases. It first hill-climbs from random points. It then runs
a simulated-annealing loop with geometric cooling. In every trial of that
loop, the current point is perturbed. The new point is then judged by a
three-case rule that compares it with the current point and with the archive.

The modules follow the source:

- `Wrappers`: `Option`, `Result`, `Outcome`.
- `Seqs`: the sub-list relation and order-preserving filtering, used for
  Python list comprehensions.
- `Problems`: the problem and point records, `get_objectives`, the corner
  points, and legality. A legal point lies within the bounds, holds whole
  numbers in its INTEGER coordinates, and carries exactly what `evaluate`
  gives for its decision vector.
- `Dominance`: `dominates`, `is_the_same`, `not_the_same`.
- `Archive`: `__add_to_archive`, `__remove_infeasible`, and the archive
  invariant.
- `Clustering`: `__archive_clustering`, and `do_clustering` modelled by its
  effect.
- `Configuration`: `AMOSAConfig` defaults, `__parameters_check`, and the
  settings the engine takes from a configuration.
- `Cooling`: the cooling step and the geometric temperature schedule.
- `Search`:
  - `hill_climbing_direction`, `hill_climbing_adaptive_step`,
    `random_perturbation`, `hill_climbing` and `random_point`;
  - every random draw is a nondeterministic choice among the values the
    draw can produce.
- `Annealing`: `__initialize_archive` and `minimize`, i.e. the three-case
  trial, the temperature loop, and the final reduction.
- `Examples`: the two-variable problem of `test.py`, plus two constrained
  points that show a quirk of the comparator.

Some behaviours are modelled exactly as the code has them:

- **Constrained dominance.** The first disjunct of `dominates` tests that
  every *objective* of `x` is `<= 0` (AMOSA.py:752). The comment next to it
  speaks of `x` being feasible, which would be a test on `g`. The model
  follows the code.
  - As a result, a constrained point whose objectives are all `<= 0` and
    which violates a constraint dominates itself (`Dominance.ConstrainedSelfDomination`).
  - Re-inserting such a member of an invariant archive moves it to the end
    (`Archive.SelfDominatingReinsertMoves`, with a concrete instance in
    `Examples.ConstrainedReinsertMoves`).
- **Early termination never fires.** `AMOSA(config)` takes the
  early-termination window from `annealing_iterations`, which is at least 1
  (AMOSA.py:124). The early-termination test compares a list with the
  number 0 (AMOSA.py:222), and in Python that comparison is always false.
  So every temperature step cools by the factor. The loop then ends after
  the first step count at which `t0 * cf^k <= final`
  (`Annealing.AnnealingLoop`).
- **The case-3 jump.** Case 3 jumps to `archive[argmin(delta_dom)]`
  (AMOSA.py:206). The index there is a position in the list of
  dominators, but it is used to index the whole archive. The model picks
  the member at such a position of the archive.
- **`do_clustering` deletes nothing when the objective values are
  floating-point.** The distance matrix is built before the `try`. Once it
  is built, the chained assignment
  at AMOSA.py:710 makes `d` a float, the next indexing raises, and the bare
  `except` returns. `Clustering.DoClustering` is specified by what any
  deletion loop of that shape can return:
  - the list itself when it is within the limit;
  - otherwise a sub-list that still has at least `limit` members.

  Returning the list unchanged is one of those outcomes. When both objective
  vectors of a pair hold only Python integers, `torch.norm` raises while the
  matrix is built (AMOSA.py:701), outside the `try`, and the run aborts;
  that path is listed under "Left out".
- **Comparing points of different kinds.** When the first argument has
  constraint values and the second has none, the comparator iterates over
  the missing values and raises a `TypeError`; the model's comparator
  answers false there. When the first argument has no constraint values, the
  comparator looks only at objectives, whatever the second one carries, and
  so does the model. The source never mixes kinds: all points of a run come
  from one problem, and every archive operation of the model requires points
  of one kind.

## Model

| member | source | states |
|---|---|---|
| Problems.GetObjectives | AMOSA.py:725-734 | the point keeps its decision vector, has constraint values exactly when the problem declares constraints, and carries the objectives and constraint values `evaluate` writes for that vector |
| Problems.LegalShape | AMOSA.py:725-734 | for a problem whose `evaluate` fills the declared outputs, a legal point has one objective per declared objective and, exactly for constrained problems, one value per constraint |
| Problems.LowerPoint | AMOSA.py:580-589 | the lower corner is a legal point whose every coordinate is the variable's lower bound |
| Problems.UpperPoint | AMOSA.py:592-601 | the upper corner is a legal point whose every coordinate is the variable's upper bound |
| Dominance.Dominates | AMOSA.py:745-765 | the comparator as written: the all/any Pareto test on objectives when `x` has no constraint values, the three-way disjunction otherwise; characterised by `UnconstrainedDominance` and `UnconstrainedIrreflexive`/`Asymmetric`/`Transitive` without constraints, by `ConstrainedSelfDomination` for the first disjunct and by `FeasibleRegime` between feasible points |
| Dominance.IsTheSame | AMOSA.py:737-738 | equal decision vectors, compared as Python compares two lists of numbers |
| Dominance.NotTheSame | AMOSA.py:741-742 | different decision vectors |
| Dominance.SameIsElementwise | AMOSA.py:737-738 | spells out the sequence equality used for `is_the_same`: one length and agreement at every position; it follows from the definition of sequence equality |
| Dominance.NotTheSameIsComplement | AMOSA.py:737-742 | `not_the_same` holds exactly when `is_the_same` does not, and `is_the_same` is symmetric; both follow directly from the definitions |
| Dominance.UnconstrainedDominance | AMOSA.py:746-749 | without constraints, `x` dominates `y` exactly when every objective of `x` is at most that of `y` and the objective vectors differ |
| Dominance.ParetoLessIsStrictComponentwise | AMOSA.py:747-749 | the all/any test on equal-length vectors is componentwise `<=` together with inequality |
| Dominance.UnconstrainedIrreflexive | AMOSA.py:746-749 | without constraints no point dominates itself |
| Dominance.UnconstrainedAsymmetric | AMOSA.py:746-749 | without constraints two points never dominate each other |
| Dominance.ParetoTransitive | AMOSA.py:747-749 | the all/any test is transitive on vectors of one length |
| Dominance.UnconstrainedTransitive | AMOSA.py:746-749 | without constraints dominance is transitive for points with equally many objectives |
| Dominance.ConstrainedSelfDomination | AMOSA.py:750-764 | a constrained point dominates itself exactly when all its objectives are `<= 0` and some constraint is violated |
| Dominance.FeasibleRegime | AMOSA.py:750-764 | between two points satisfying every constraint, dominance is the Pareto order on objectives, and it is asymmetric |
| Archive.Survivors | AMOSA.py:345-347 | the members `x` does not dominate, in archive order: a sub-list holding every such member and only such members |
| Archive.AddToArchive | AMOSA.py:341-351 | the survivors come first in order; `x` is appended, as the last element, exactly when every survivor neither dominates `x` nor shares its decision vector; the result is never empty |
| Archive.InsertedWhenUndominated | AMOSA.py:345-351 | a point that no member dominates and whose decision vector is new ends up at the end of the archive, after the survivors |
| Archive.AddPreservesApart | AMOSA.py:341-351 | insertion keeps the archive free of dominated pairs and of repeated decision vectors |
| Archive.AddPreservesValid | AMOSA.py:341-351 | insertion of a legal point keeps every member legal and the archive mutually non-dominating |
| Archive.ReinsertIsNoOp | AMOSA.py:341-351 | without constraints, inserting a point the archive holds gives back the same archive |
| Archive.AddIdempotent | AMOSA.py:341-351 | inserting a point twice is the same as inserting it once, with or without constraints (including a constrained point that dominates itself), and the result keeps the point's kind |
| Archive.AddAll | AMOSA.py:338-339 | inserting a non-empty list of points of one kind leaves a non-empty archive of that kind; inserting nothing changes nothing |
| Archive.AddAllPreservesValid | AMOSA.py:338-339 | inserting legal points one by one keeps the archive invariant |
| Archive.RemoveInfeasible | AMOSA.py:366-370 | without constraints the archive is untouched; with constraints exactly the members satisfying every constraint are kept, in order |
| Archive.RemoveInfeasiblePreservesValid | AMOSA.py:366-370 | removing the infeasible members keeps the archive invariant |
| Clustering.DoClustering | AMOSA.py:694-722 | a sub-list of the argument; the argument itself when it is within the limit, otherwise still at least `limit` members long |
| Clustering.ArchiveClustering | AMOSA.py:353-364 | without constraints, a sub-list of the archive, untouched within the limit and at least the limit long above it; with constraints, only members with all constraints satisfied or all violated survive; too many feasible members leaves only feasible ones, at least the limit many; otherwise all feasible members come last after a sub-list of the fully violated ones, which is all of them when they fit in the room left and at least that room otherwise; the archive invariant is kept |
| Clustering.JoinedPartitions | AMOSA.py:360-362 | the kept fully violated members followed by the feasible members are old members of either kind, and are mutually non-dominating when the archive was |
| Clustering.ClusteringKeepsValid | AMOSA.py:353-364 | a reduction that returns old members and keeps mutual non-domination keeps the archive invariant |
| Configuration.DefaultConfig | AMOSA.py:36-47 | the constructor defaults: hard limit 20, soft limit 50, gamma 2, 500 hill-climbing iterations, temperatures 500 and 0.000001, factor 0.9, 500 annealing iterations, window 0; `DefaultsAccepted` shows they pass the check |
| Configuration.EngineSettings | AMOSA.py:124 | the engine takes its early-termination window from `annealing_iterations`, ignoring the configured window; `CoolingAlwaysCools` uses it |
| Configuration.ParametersCheck | AMOSA.py:289-313 | an accepted configuration breaks no rule; a rejected one is rejected for a rule it breaks, and it breaks no rule checked before that one |
| Configuration.AcceptedConfigurations | AMOSA.py:289-313 | accepted exactly when hard limit <= soft limit, hill-climbing iterations >= 0, gamma >= 1, annealing iterations >= 1, 0 < final < initial temperature and 0 < cooling factor < 1 |
| Configuration.DefaultsAccepted | AMOSA.py:36-47 | the default configuration passes the check |
| Cooling.ListEqualsScalar | AMOSA.py:222 | the early-termination test compares a list slice with the number 0, which is never equal in Python; `CoolingAlwaysCools` relies on it |
| Cooling.CoolingStep | AMOSA.py:219-226 | the step after each temperature step: cool by the factor without a window, otherwise jump to the final temperature when the test holds and cool by the factor when it does not; `CoolingAlwaysCools` and `ScheduleStep` show it always cools for an accepted configuration |
| Cooling.Suffix | AMOSA.py:222 | Python's `phy[-w:]`: a suffix of the history, of length `min(w, len)` for a positive window |
| Cooling.CoolingAlwaysCools | AMOSA.py:219-226 | for an accepted configuration the engine's window is at least 1 and every cooling step multiplies the temperature by the cooling factor, so a positive temperature strictly decreases and stays positive |
| Cooling.AcceptedSchedule | AMOSA.py:301-313 | an accepted configuration has 0 < final < initial temperature and a cooling factor in (0, 1) |
| Cooling.ScheduleStep | AMOSA.py:219-226 | after `k` cooling steps on the schedule, one more step gives the schedule's temperature at `k + 1` |
| Cooling.ScheduleDecreasing | AMOSA.py:219-226 | the scheduled temperature never increases with the number of steps |
| Cooling.CoolingReachesFloor | AMOSA.py:149-226 | from an initial temperature above a positive final one, some number of cooling steps reaches the final temperature, so the temperature loop terminates |
| Search.HillClimbingDirection | AMOSA.py:634-649 | a valid variable index and a direction of +1 or -1; when a previous index is given, a different one |
| Search.DrawStep | AMOSA.py:666-688 | a nonzero step that keeps the variable within its bounds in direction `up`, whole for an INTEGER variable |
| Search.StepInBounds | AMOSA.py:690 | moving one variable by such a step keeps the decision vector legal and changes only that variable |
| Search.HillClimbingAdaptiveStep | AMOSA.py:652-691 | at the bound in direction `up` the point is unchanged; otherwise a legal point differing only in variable `d`, moved strictly in direction `up` |
| Search.RandomPerturbation | AMOSA.py:604-631 | a legal point that differs from `s` in exactly one variable |
| Search.ImprovementPathDominates | AMOSA.py:545-558 | without constraints, the end of a chain of dominating moves dominates its start |
| Search.HillClimbing | AMOSA.py:545-558 | a legal point reached by a chain of moves each dominating the previous point with a new decision vector; without constraints the result is the start or dominates it; no iterations return the start |
| Search.DrawCoordinate | AMOSA.py:563-569 | a value within the variable's bounds, whole for an INTEGER variable, and strictly below the upper bound for a non-degenerate INTEGER range |
| Search.RandomPoint | AMOSA.py:561-577 | a legal point whose INTEGER coordinates with a non-degenerate range lie strictly below the upper bound |
| Annealing.Dominators | AMOSA.py:155-156 | a sub-list of the archive, in archive order, holding every member that dominates the new point and no other; so it is empty exactly when no member dominates it |
| Annealing.DominatedByNew | AMOSA.py:157-161 | a sub-list of the archive, in archive order, holding every member the new point dominates and no other; so it is empty exactly when it dominates none |
| Annealing.Classify | AMOSA.py:162-217 | the `RuntimeError` branch and the idle sub-cases are unreachable; case 1 holds exactly when `x` dominates `y`, case 2 exactly when neither dominates the other, case 3 exactly when only `y` dominates; `y` is inserted exactly when neither `x` nor any member dominates it |
| Annealing.InsertAndReduce | AMOSA.py:192-194 | insertion followed by reduction above the soft limit keeps the archive invariant, returns only members of the archive after insertion, and is plain insertion within the soft limit |
| Annealing.AnnealingTrial | AMOSA.py:152-217 | the new point is legal and moves one variable; the archive invariant is kept; the archive changes only on insertion; cases 1 and 2 without insertion move to the new point or stay; case 3 without insertion stays or jumps to an archive member at a dominator position; on insertion the current point becomes the new one |
| Annealing.TemperatureStep | AMOSA.py:152-217 | the trials at one temperature keep the archive invariant and a legal current point |
| Annealing.InitializeArchive | AMOSA.py:315-339 | the candidates are the lower and upper corners followed by `gamma * soft_limit` hill-climbed points when hill climbing is enabled; the archive is their successive insertion, non-empty and invariant |
| Annealing.ReduceToHardLimit | AMOSA.py:143-144 | above the hard limit the archive is clustered to old members, keeping the invariant; within it, unchanged |
| Annealing.Cool | AMOSA.py:219-226 | a cooling step made above the final temperature keeps the temperature on the geometric schedule |
| Annealing.AnnealingLoop | AMOSA.py:146-226 | the loop ends at a temperature at or below the final one, after exactly the steps whose scheduled temperatures lie above it, with the archive invariant kept; it ends above the final temperature exactly when it ends with an empty archive, and then still on the schedule |
| Annealing.FinishArchive | AMOSA.py:228-233 | the final archive is invariant, made of old members, and on a constrained problem satisfies every constraint |
| Annealing.Minimize | AMOSA.py:134-235 | on any problem, a rejected configuration fails with the error the check reports and nothing else does; a successful run has a non-empty invariant archive that, with constraints, holds only feasible points, and stops at the first step of the schedule at or below the final temperature |
| Examples.TestProblemIsValid | test.py:6-20 | the problem of `test.py` has well-formed bounds and outputs and a movable variable |
| Examples.TestPointComparisons | test.py:6-20 | on that problem `[10, 20]` dominates `[15, 25]`, while `[10, 25]` and `[15, 20]` do not dominate each other |
| Examples.OriginDominatesEveryOtherPoint | test.py:6-20 | on that problem the lower corner dominates every other legal point |
| Examples.ArchiveWithOrigin | test.py:6-20 | an invariant archive of that problem that holds the lower corner holds nothing else |
| Examples.InsertingOriginAbsorbs | AMOSA.py:341-351 | on the `test.py` problem, inserting the lower corner into any invariant archive leaves the lower corner alone |
| Archive.SelfDominatingSurvivors | AMOSA.py:345-347 | in an invariant archive, a member that dominates itself is the only member it removes |
| Archive.SelfDominatingReinsertMoves | AMOSA.py:341-351 | in an invariant constrained archive, re-inserting a member that dominates itself removes it from its place and appends it at the end, leaving the other members in order |
| Examples.ConstrainedReinsertMoves | AMOSA.py:750-753 | an example: a constrained point with objective `-1` and a violated constraint dominates itself, and re-inserting it into the two-member archive `[it, bystander]` gives `[bystander, it]` |

## Left out

- Printing, timing, the statistics table and the `duration` field are not modelled.
- `pareto_front`, `pareto_set`, `constraint_violation`, `plot_pareto` and `save_results` are output formatting and are not modelled.
- The torch numerics are not modelled: `__compute_fitness_range`, `domination_amount`, `sigmoid`, `accept`, `__compute_cv` and `__compute_deltas`. The acceptance decisions they feed are nondeterministic choices.
- The diversity values that `__compute_deltas` appends to the history are arbitrary reals. The cooling step never looks at their values.
- The bodies of the benchmark problems (`problems/*.py`) are not modelled. `evaluate` is a function field of the problem record. Only the `test.py` problem is written out.
- `problems/test.py` (a command-line driver) is not part of this model.
- The evaluation cache, checkpointing and medoid clustering are not part of this model. None of them is in `AMOSA.py`.
- Floating-point rounding is not modelled: values are mathematical reals. Python's mixed `int`/`float` equality makes list equality numeric, which real-valued sequences match.
- Search.RandomPerturbation: requires some variable with a non-degenerate range. With no variable at all, the first `hill_climbing_direction` call (AMOSA.py:610) raises a `ValueError`; with variables whose ranges are all degenerate, the source's redraw loop never ends.
- Search.DrawStep: the number of redraws and the termination of the redraw loops are not modelled. A draw is any value a redraw loop can exit with.
- Search.HillClimbing: requires two variables, or no iterations. With a single variable, the first rejected step makes the direction redraw loop of `hill_climbing_direction` spin forever.
- Dominance.Dominates: comparing a constrained first argument with an unconstrained second one raises a `TypeError` in the source. Here it is false, and no operation makes that comparison.
- Clustering.DoClustering: specified by its possible effects, not by its distance matrix. As written, the source returns the list unchanged when the objective values are floating-point.
- The exception `torch.norm` raises on integer-valued objective vectors while `do_clustering` builds its distance matrix, which aborts the run, is not modelled: the model's clustering always returns.
- Annealing.Minimize: for an accepted configuration, requires a well-formed problem, a movable variable and, when hill climbing is on, two variables. Without any variable, `randrange(0, 0)` raises a `ValueError`; with only degenerate ranges the redraw loop of `random_perturbation` never ends; with one variable and hill climbing on, the redraw loop of `hill_climbing_direction` never ends. A rejected configuration is reported on any problem.
- Search.HillClimbingDirection: requires at least one variable. With none, `randrange(0, 0)` raises a `ValueError` (AMOSA.py:641, 646), which the model does not represent.
- Annealing.AnnealingLoop: the contract does not pin which temperature step stops the loop on an empty archive; it states only that the loop ends above the final temperature exactly when it ends with an empty archive. The body stops at the first step that leaves the archive empty.
- Annealing.Minimize: the contract does not state where an empty archive stops the run (the random start at AMOSA.py:147, or a statistics call at :218 or :234); it states only that a successful run has a non-empty archive. The body fails with `EmptyArchive` at each of those places.
- The exception that the statistics computation (`__compute_deltas`) raises on an empty archive is modelled only as the `EmptyArchive` failure of `Annealing.Minimize`; its message is not.
- Problems.GetObjectives: for an unconstrained problem the model ignores any `g` that `evaluate` writes. The source would store it.

=== FILE: annealing.dfy ===
/**
 * The optimizer itself (`AMOSA.minimize`): archive initialisation, the
 * three-case acceptance logic of one annealing trial, and the temperature
 * loop.  The acceptance probability (a sigmoid of a domination amount
 * computed with torch) is replaced by a nondeterministic choice, so the
 * model covers every run the probabilities allow.
 */
module Annealing {
  import opened Wrappers
  import opened Seqs
  import opened Problems
  import opened Dominance
  import opened Archive
  import opened Clustering
  import opened Configuration
  import opened Cooling
  import opened Search

  /** `[s for s in archive if dominates(s, y)]` */
  function Dominators(a: seq<Point>, y: Point): (r: seq<Point>)
    ensures IsSublist(r, a) && |r| <= |a|
    ensures forall i :: 0 <= i < |r| ==> r[i] in a && Dominates(r[i], y)
    ensures forall i :: 0 <= i < |a| && Dominates(a[i], y) ==> a[i] in r
    ensures |r| == 0 <==> forall i :: 0 <= i < |a| ==> !Dominates(a[i], y)
  {
    var r := Filter(a, s => Dominates(s, y));
    assert |r| > 0 ==> r[0] in a && Dominates(r[0], y);
    r
  }

  /** `[s for s in archive if dominates(y, s)]` */
  function DominatedByNew(a: seq<Point>, y: Point): (r: seq<Point>)
    ensures IsSublist(r, a) && |r| <= |a|
    ensures forall i :: 0 <= i < |r| ==> r[i] in a && Dominates(y, r[i])
    ensures forall i :: 0 <= i < |a| && Dominates(y, a[i]) ==> a[i] in r
    ensures |r| == 0 <==> forall i :: 0 <= i < |a| ==> !Dominates(y, a[i])
  {
    var r := Filter(a, s => Dominates(y, s));
    assert |r| > 0 ==> r[0] in a && Dominates(y, r[0]);
    r
  }

  /**
   * The branches of one annealing trial: case 1 (the current point
   * dominates the new one), case 2 (neither dominates the other) and case 3
   * (the new point dominates the current one), each split by whether some
   * archive member dominates the new point; the idle sub-cases and the final
   * `RuntimeError` are the branches the source reaches when no test holds.
   */
  datatype Case =
    | Case1
    | Case2Anneal
    | Case2Insert
    | Case2Idle
    | Case3Jump
    | Case3Insert
    | Case3Idle
    | Inconsistent

  predicate Inserts(k: Case)
  {
    k == Case2Insert || k == Case3Insert
  }

  /**
   * The case analysis of `minimize`, with the tests exactly as written.  The
   * idle sub-cases and the `RuntimeError` branch are never reached; the case
   * is fixed by the two dominance tests between `x` and `y`, and the new
   * point is inserted exactly when it is not dominated by `x` nor by any
   * archive member.
   */
  function Classify(a: seq<Point>, x: Point, y: Point): (k: Case)
    ensures k != Inconsistent && k != Case2Idle && k != Case3Idle
    ensures k == Case1 <==> Dominates(x, y)
    ensures (k == Case2Anneal || k == Case2Insert) <==> !Dominates(x, y) && !Dominates(y, x)
    ensures (k == Case3Jump || k == Case3Insert) <==> !Dominates(x, y) && Dominates(y, x)
    ensures Inserts(k) <==> !Dominates(x, y) && forall i :: 0 <= i < |a| ==> !Dominates(a[i], y)
  {
    var dominating := |Dominators(a, y)|;
    var dominated := |DominatedByNew(a, y)|;
    if Dominates(x, y) && dominating >= 0 then Case1
    else if !Dominates(x, y) && !Dominates(y, x) then
      if dominating >= 1 then Case2Anneal
      else if (dominating == 0 && dominated == 0) || dominated >= 1 then Case2Insert
      else Case2Idle
    else if Dominates(y, x) then
      if dominating >= 1 then Case3Jump
      else if (dominating == 0 && dominated == 0) || dominated >= 1 then Case3Insert
      else Case3Idle
    else Inconsistent
  }

  /**
   * Insert `y` (`__add_to_archive`) and reduce the archive to the hard
   * limit when it has grown past the soft limit.
   */
  method InsertAndReduce(p: Problem, c: Config, a: seq<Point>, y: Point) returns (r: seq<Point>)
    requires ValidOutputs(p)
    requires ValidArchive(p, a) && Legal(p, y)
    ensures OfKind(a, y.g.Some?)
    ensures ValidArchive(p, r)
    ensures |AddToArchive(a, y)| <= c.archiveSoftLimit ==> r == AddToArchive(a, y)
    ensures forall i :: 0 <= i < |r| ==> r[i] in AddToArchive(a, y)
  {
    AddPreservesValid(p, a, y);
    var b := AddToArchive(a, y);
    if |b| > c.archiveSoftLimit {
      ValidArchiveOfKind(p, b);
      r := ArchiveClustering(p, b, c.archiveHardLimit);
      ClusteringKeepsValid(p, b, r);
    } else {
      r := b;
    }
  }

  /**
   * One iteration of the inner loop of `minimize`: perturb the current
   * point `x` into `y`, classify, then either move by an accepted anneal,
   * jump to an archive member, or insert `y` and move to it.
   */
  method AnnealingTrial(p: Problem, c: Config, a: seq<Point>, x: Point) returns (a': seq<Point>, x': Point, y: Point)
    requires ValidProblem(p)
    requires Movable(p)
    requires ValidArchive(p, a) && Legal(p, x)
    ensures Legal(p, y)
    ensures exists d: nat :: OnlyCoordinate(x.x, y.x, d) && y.x[d] != x.x[d]
    ensures ValidArchive(p, a') && Legal(p, x')
    ensures OfKind(a, y.g.Some?)
    ensures !Inserts(Classify(a, x, y)) ==> a' == a
    ensures Classify(a, x, y) == Case1 || Classify(a, x, y) == Case2Anneal ==> x' == x || x' == y
    ensures Classify(a, x, y) == Case3Jump ==> x' == x || x' in a[..|Dominators(a, y)|]
    ensures Inserts(Classify(a, x, y)) ==>
              && x' == y
              && (|AddToArchive(a, y)| <= c.archiveSoftLimit ==> a' == AddToArchive(a, y))
              && forall i :: 0 <= i < |a'| ==> a'[i] in AddToArchive(a, y)
  {
    y := RandomPerturbation(p, x);
    ValidArchiveOfKind(p, a);
    a', x' := a, x;
    var k := Classify(a, x, y);
    match k
    case Case1 =>
      if * { x' := y; }
    case Case2Anneal =>
      if * { x' := y; }
    case Case3Jump =>
      if * {
        var j: nat :| j < |Dominators(a, y)|;
        x' := a[j];
      }
    case Case2Insert =>
      a' := InsertAndReduce(p, c, a, y);
      x' := y;
    case Case3Insert =>
      a' := InsertAndReduce(p, c, a, y);
      x' := y;
  }

  /**
   * `__initialize_archive`: the lower and upper corner points, then, when
   * hill climbing is enabled, `gamma * soft_limit` hill-climbed random
   * points, all inserted one after the other into an empty archive.
   */
  method InitializeArchive(p: Problem, c: Config) returns (a: seq<Point>, candidates: seq<Point>)
    requires ValidProblem(p)
    requires p.numVariables >= 2 || c.hillClimbingIterations <= 0
    ensures |candidates| >= 2 && candidates[0] == LowerPoint(p) && candidates[1] == UpperPoint(p)
    ensures c.hillClimbingIterations <= 0 ==> |candidates| == 2
    ensures c.hillClimbingIterations > 0 && c.archiveGamma * c.archiveSoftLimit >= 0 ==>
              |candidates| == 2 + c.archiveGamma * c.archiveSoftLimit
    ensures forall i :: 0 <= i < |candidates| ==> Legal(p, candidates[i])
    ensures forall i :: 0 <= i < |candidates| ==> OfKind([], candidates[i].g.Some?) && candidates[i].g.Some? == candidates[0].g.Some?
    ensures a == AddAll([], candidates)
    ensures ValidArchive(p, a) && |a| >= 1
  {
    candidates := [LowerPoint(p), UpperPoint(p)];
    if c.hillClimbingIterations > 0 {
      var count := c.archiveGamma * c.archiveSoftLimit;
      for i := 0 to (if count > 0 then count else 0)
        invariant |candidates| == 2 + i
        invariant candidates[0] == LowerPoint(p) && candidates[1] == UpperPoint(p)
        invariant forall j :: 0 <= j < |candidates| ==> Legal(p, candidates[j])
      {
        var start := RandomPoint(p);
        var climbed := HillClimbing(p, start, c.hillClimbingIterations);
        candidates := candidates + [climbed];
      }
    }
    AddAllPreservesValid(p, [], candidates);
    a := AddAll([], candidates);
  }

  /**
   * Why `minimize` stops without a result: a rejected configuration, or an
   * empty archive where the source draws from it or computes its statistics.
   */
  datatype RunError = InvalidConfiguration(error: ConfigError) | EmptyArchive

  /** The state `minimize` ends in: the archive, the temperature, and the number of temperature steps made. */
  datatype Run = Run(archive: seq<Point>, temperature: real, coolingSteps: nat)

  /** `if len(archive) > hard_limit: __archive_clustering(problem)` */
  method ReduceToHardLimit(p: Problem, c: Config, a: seq<Point>) returns (r: seq<Point>)
    requires ValidOutputs(p)
    requires ValidArchive(p, a)
    ensures ValidArchive(p, r)
    ensures |a| <= c.archiveHardLimit ==> r == a
    ensures forall i :: 0 <= i < |r| ==> r[i] in a
  {
    r := a;
    if |a| > c.archiveHardLimit {
      ValidArchiveOfKind(p, a);
      r := ArchiveClustering(p, a, c.archiveHardLimit);
      ClusteringKeepsValid(p, a, r);
    }
  }

  /** The `annealing_iterations` trials made at one temperature. */
  method TemperatureStep(p: Problem, c: Config, a: seq<Point>, x: Point) returns (a': seq<Point>, x': Point)
    requires ValidProblem(p)
    requires Movable(p)
    requires ValidArchive(p, a) && Legal(p, x)
    ensures ValidArchive(p, a') && Legal(p, x')
  {
    a', x' := a, x;
    for i := 0 to (if c.annealingIterations > 0 then c.annealingIterations else 0)
      invariant ValidArchive(p, a') && Legal(p, x')
    {
      var y;
      a', x', y := AnnealingTrial(p, c, a', x');
    }
  }

  /** The temperature after `steps` cooling steps, all made above the final temperature. */
  predicate OnSchedule(c: Config, t: real, steps: nat)
  {
    && t == Temperature(c, steps)
    && forall j :: 0 <= j < steps ==> Temperature(c, j) > c.finalTemperature
  }

  /**
   * The temperature loop of `minimize`: from the initial temperature, one
   * temperature step then one cooling step while the temperature is above
   * the final one.  It ends, after the first step count at which the
   * geometric schedule reaches the final temperature.  The statistics
   * computed after each temperature step fail on an empty archive; the loop
   * then stops with that empty archive, still above the final temperature.
   */
  method AnnealingLoop(p: Problem, c: Config, a: seq<Point>, x: Point) returns (a': seq<Point>, x': Point, t: real, steps: nat)
    requires ParametersCheck(c).Pass?
    requires ValidProblem(p) && Movable(p)
    requires ValidArchive(p, a) && Legal(p, x) && |a| > 0
    ensures ValidArchive(p, a') && Legal(p, x')
    ensures OnSchedule(c, t, steps)
    ensures |a'| > 0 ==> t <= c.finalTemperature
    ensures |a'| == 0 ==> t > c.finalTemperature
  {
    AcceptedSchedule(c);
    var t0, cf, final := c.initialTemperature, c.coolingFactor, c.finalTemperature;
    a', x', t, steps := a, x, t0, 0;
    var phi: real :| true;
    var phy := [phi];
    ghost var bound := CoolingReachesFloor(t0, final, cf);
    while t > final && |a'| > 0
      invariant ValidArchive(p, a') && Legal(p, x')
      invariant OnSchedule(c, t, steps)
      invariant |a'| == 0 ==> t > final
      invariant steps <= bound
      decreases bound - steps, |a'|
    {
      a', x' := TemperatureStep(p, c, a', x');
      if |a'| > 0 {
        phy := phy + [phi];
        t := Cool(c, t, steps, phy);
        steps := steps + 1;
      }
    }
  }

  /**
   * The cooling step after a temperature step: the step the engine makes
   * with the window it keeps, which keeps the temperature on its schedule.
   */
  method Cool(c: Config, t: real, steps: nat, phy: seq<real>) returns (t': real)
    requires ParametersCheck(c).Pass?
    requires OnSchedule(c, t, steps) && t > c.finalTemperature
    ensures OnSchedule(c, t', steps + 1)
  {
    ScheduleStep(c, t, steps, phy);
    t' := CoolingStep(t, EngineSettings(c), phy);
    assert Temperature(c, steps) > c.finalTemperature;
  }

  /** The end of `minimize`: reduce the archive to the hard limit, then drop its infeasible members. */
  method FinishArchive(p: Problem, c: Config, a: seq<Point>) returns (r: seq<Point>)
    requires ValidOutputs(p)
    requires ValidArchive(p, a)
    ensures ValidArchive(p, r)
    ensures p.numConstraints > 0 ==> forall i :: 0 <= i < |r| ==> Feasible(r[i])
    ensures forall i :: 0 <= i < |r| ==> r[i] in a
  {
    var reduced := ReduceToHardLimit(p, c, a);
    RemoveInfeasiblePreservesValid(p, reduced);
    r := RemoveInfeasible(p, reduced);
    SublistMembers(r, reduced);
  }

  /**
   * `minimize(problem)`: check the configuration, build the archive,
   * reduce it to the hard limit, start from a random member, run the
   * temperature loop, then reduce the archive again and drop its
   * infeasible members.  The run fails on a configuration error, and on an
   * empty archive where the source draws the random start from it or
   * computes its statistics (after every temperature step and at the end).
   */
  method Minimize(p: Problem, c: Config) returns (res: Result<Run, RunError>)
    requires ParametersCheck(c).Pass? ==> ValidProblem(p)
    requires ParametersCheck(c).Pass? ==> Movable(p)
    requires ParametersCheck(c).Pass? ==> p.numVariables >= 2 || c.hillClimbingIterations <= 0
    ensures ParametersCheck(c).Fail? <==> res.Failure? && res.error.InvalidConfiguration?
    ensures ParametersCheck(c).Fail? ==> res == Failure(InvalidConfiguration(ParametersCheck(c).error))
    ensures res.Success? ==>
              && ValidArchive(p, res.value.archive)
              && |res.value.archive| > 0
              && (p.numConstraints > 0 ==> forall i :: 0 <= i < |res.value.archive| ==> Feasible(res.value.archive[i]))
              && OnSchedule(c, res.value.temperature, res.value.coolingSteps)
              && res.value.temperature <= c.finalTemperature
  {
    var check := ParametersCheck(c);
    if check.Fail? {
      return Failure(InvalidConfiguration(check.error));
    }
    var a, candidates := InitializeArchive(p, c);
    a := ReduceToHardLimit(p, c, a);
    if |a| == 0 {
      return Failure(EmptyArchive);
    }
    var start: nat :| start < |a|;
    var x, t, steps;
    a, x, t, steps := AnnealingLoop(p, c, a, a[start]);
    if |a| == 0 {
      return Failure(EmptyArchive);
    }
    a := FinishArchive(p, c, a);
    if |a| == 0 {
      return Failure(EmptyArchive);
    }
    return Success(Run(a, t, steps));
  }
}

=== FILE: archive.dfy ===
/**
 * The archive of mutually non-dominated solutions: insertion
 * (`__add_to_archive`), the final removal of infeasible members
 * (`__remove_infeasible`), and the invariant both keep.
 */
module Archive {
  import opened Wrappers
  import opened Seqs
  import opened Problems
  import opened Dominance

  /** `y` may sit next to `z` in the archive: it does not dominate `z` and has another decision vector. */
  predicate Apart(y: Point, z: Point)
  {
    !Dominates(y, z) && !IsTheSame(y, z)
  }

  /** No member dominates another and no two members share a decision vector. */
  predicate MutuallyApart(a: seq<Point>)
  {
    forall i, j :: 0 <= i < |a| && 0 <= j < |a| && i != j ==> Apart(a[i], a[j])
  }

  /** Every member has constraint values exactly when `constrained` holds. */
  predicate OfKind(a: seq<Point>, constrained: bool)
  {
    forall i :: 0 <= i < |a| ==> a[i].g.Some? == constrained
  }

  /** The archive invariant for a run on problem `p`. */
  predicate ValidArchive(p: Problem, a: seq<Point>)
  {
    (forall i :: 0 <= i < |a| ==> Legal(p, a[i])) && MutuallyApart(a)
  }

  /** `[y for y in archive if not dominates(x, y)]` */
  function Survivors(a: seq<Point>, x: Point): (r: seq<Point>)
    ensures IsSublist(r, a)
    ensures forall i :: 0 <= i < |r| ==> r[i] in a && !Dominates(x, r[i])
    ensures forall i :: 0 <= i < |a| && !Dominates(x, a[i]) ==> a[i] in r
  {
    Filter(a, y => !Dominates(x, y))
  }

  /** `any([dominates(y, x) or is_the_same(x, y) for y in s])` */
  predicate Blocked(s: seq<Point>, x: Point)
  {
    exists i :: 0 <= i < |s| && (Dominates(s[i], x) || IsTheSame(x, s[i]))
  }

  /**
   * `__add_to_archive(x)`: drop the members `x` dominates, then append `x`
   * unless a remaining member dominates it or has its decision vector.
   * The source compares points of one problem only, which `OfKind` states.
   */
  function AddToArchive(a: seq<Point>, x: Point): (r: seq<Point>)
    requires OfKind(a, x.g.Some?)
    ensures 1 <= |r|
    ensures var s := Survivors(a, x); |s| <= |r| <= |s| + 1 && r[..|s|] == s
    ensures |r| == |Survivors(a, x)| + 1 ==> r[|r| - 1] == x
    ensures |r| == |Survivors(a, x)| + 1 <==>
              forall i :: 0 <= i < |a| && !Dominates(x, a[i]) ==> !Dominates(a[i], x) && !IsTheSame(x, a[i])
  {
    if |a| == 0 then [x]
    else
      var s := Survivors(a, x);
      if Blocked(s, x) then s else s + [x]
  }

  /** Two different elements of an archive that keeps the invariant are apart. */
  lemma MembersApart(a: seq<Point>, y: Point, z: Point)
    requires MutuallyApart(a)
    requires y in a && z in a && y != z
    ensures Apart(y, z)
  {
    var i :| 0 <= i < |a| && a[i] == y;
    var j :| 0 <= j < |a| && a[j] == z;
  }

  lemma ApartDistinct(a: seq<Point>)
    requires MutuallyApart(a)
    ensures Distinct(a)
  {
    forall i, j | 0 <= i < j < |a| ensures a[i] != a[j] {
      assert !IsTheSame(a[i], a[j]);
    }
  }

  /** A repetition-free list of archive members keeps the invariant. */
  lemma ApartFromMembers(r: seq<Point>, a: seq<Point>)
    requires MutuallyApart(a)
    requires Distinct(r)
    requires forall i :: 0 <= i < |r| ==> r[i] in a
    ensures MutuallyApart(r)
  {
    forall i, j | 0 <= i < |r| && 0 <= j < |r| && i != j ensures Apart(r[i], r[j]) {
      if i < j { assert r[i] != r[j]; } else { assert r[j] != r[i]; }
      MembersApart(a, r[i], r[j]);
    }
  }

  /** Deleting members keeps the invariant. */
  lemma SublistApart(r: seq<Point>, a: seq<Point>)
    requires IsSublist(r, a)
    requires MutuallyApart(a)
    ensures MutuallyApart(r)
  {
    ApartDistinct(a);
    SublistDistinct(r, a);
    SublistMembers(r, a);
    ApartFromMembers(r, a);
  }

  /** Every member of an archive of problem `p` has constraint values exactly when `p` has constraints. */
  lemma ValidArchiveOfKind(p: Problem, a: seq<Point>)
    requires ValidArchive(p, a)
    ensures OfKind(a, p.numConstraints > 0)
  {
    forall i | 0 <= i < |a| ensures a[i].g.Some? == (p.numConstraints > 0) {
      assert a[i] == GetObjectives(p, a[i].x);
    }
  }

  /** Insertion keeps the archive pairwise non-dominating and free of duplicate decision vectors. */
  lemma AddPreservesApart(a: seq<Point>, x: Point)
    requires OfKind(a, x.g.Some?)
    requires MutuallyApart(a)
    ensures MutuallyApart(AddToArchive(a, x))
  {
    var r := AddToArchive(a, x);
    if |a| > 0 {
      var s := Survivors(a, x);
      SublistApart(s, a);
      if !Blocked(s, x) {
        assert r == s + [x];
        forall i, j | 0 <= i < |r| && 0 <= j < |r| && i != j ensures Apart(r[i], r[j]) {
          if i < |s| && j < |s| {
            assert r[i] == s[i] && r[j] == s[j];
          } else if i < |s| {
            assert r[i] == s[i] && r[j] == x;
            assert !Dominates(s[i], x) && !IsTheSame(x, s[i]);
          } else {
            assert r[i] == x && r[j] == s[j];
            assert !Dominates(x, s[j]) && !IsTheSame(x, s[j]);
          }
        }
      }
    }
  }

  /** Insertion of a legal point keeps the whole archive invariant of a run. */
  lemma AddPreservesValid(p: Problem, a: seq<Point>, x: Point)
    requires ValidArchive(p, a)
    requires Legal(p, x)
    ensures OfKind(a, x.g.Some?)
    ensures ValidArchive(p, AddToArchive(a, x))
  {
    ValidArchiveOfKind(p, a);
    AddPreservesApart(a, x);
    var r := AddToArchive(a, x);
    var s := Survivors(a, x);
    forall i | 0 <= i < |r| ensures Legal(p, r[i]) {
      if i < |s| {
        assert r[i] == s[i];
      } else {
        assert r[i] == x;
      }
    }
  }

  /**
   * A point that no member dominates and whose decision vector no member
   * has is appended, after the members it does not dominate.
   */
  lemma InsertedWhenUndominated(a: seq<Point>, x: Point)
    requires OfKind(a, x.g.Some?)
    requires forall i :: 0 <= i < |a| ==> !Dominates(a[i], x) && !IsTheSame(x, a[i])
    ensures AddToArchive(a, x) == Survivors(a, x) + [x]
  {
    var r := AddToArchive(a, x);
    var s := Survivors(a, x);
    assert |r| == |s| + 1;
    assert r == r[..|s|] + [r[|r| - 1]];
  }

  /** Without constraints, inserting a point the archive already holds leaves the archive as it was. */
  lemma ReinsertIsNoOp(a: seq<Point>, k: nat)
    requires k < |a|
    requires OfKind(a, false)
    requires MutuallyApart(a)
    ensures AddToArchive(a, a[k]) == a
  {
    var x := a[k];
    forall i | 0 <= i < |a| ensures !Dominates(x, a[i]) {
      if i == k {
        UnconstrainedIrreflexive(x);
      }
    }
    FilterKeepsAll(a, y => !Dominates(x, y));
    assert Survivors(a, x) == a;
    assert Dominates(a[k], x) || IsTheSame(x, a[k]);
  }

  /** A member that dominates itself removes exactly itself from an archive keeping the invariant. */
  lemma SelfDominatingSurvivors(a: seq<Point>, k: nat)
    requires k < |a|
    requires MutuallyApart(a)
    requires Dominates(a[k], a[k])
    ensures Survivors(a, a[k]) == a[..k] + a[k + 1..]
  {
    var x := a[k];
    var keep := y => !Dominates(x, y);
    var u, w := a[..k], a[k + 1..];
    assert a == u + [x] + w;
    forall i | 0 <= i < |u| ensures keep(u[i]) {
      assert u[i] == a[i] && Apart(a[k], a[i]);
    }
    forall i | 0 <= i < |w| ensures keep(w[i]) {
      assert w[i] == a[k + 1 + i] && Apart(a[k], a[k + 1 + i]);
    }
    FilterKeepsAll(u, keep);
    FilterKeepsAll(w, keep);
    FilterConcat(u + [x], w, keep);
    FilterConcat(u, [x], keep);
    assert Filter([x], keep) == [];
  }

  /**
   * With constraints, re-inserting a member that dominates itself (all
   * objectives <= 0, some constraint violated) moves it from its place to
   * the end: it is the only member it removes, and then nothing blocks it.
   */
  lemma SelfDominatingReinsertMoves(a: seq<Point>, k: nat)
    requires k < |a|
    requires OfKind(a, true)
    requires MutuallyApart(a)
    requires Dominates(a[k], a[k])
    ensures AddToArchive(a, a[k]) == a[..k] + a[k + 1..] + [a[k]]
  {
    var x := a[k];
    SelfDominatingSurvivors(a, k);
    var s := Survivors(a, x);
    assert !Blocked(s, x) by {
      forall i | 0 <= i < |s| ensures !Dominates(s[i], x) && !IsTheSame(x, s[i]) {
        var j := if i < k then i else i + 1;
        assert s[i] == a[j] && Apart(a[j], a[k]);
      }
    }
  }

  /**
   * Inserting the same point twice is the same as inserting it once, with or
   * without constraints: a point that dominates itself removes itself on the
   * second insertion and is appended again; otherwise it is blocked by its
   * own copy, or by whatever blocked it the first time.
   */
  lemma AddIdempotent(a: seq<Point>, x: Point)
    requires OfKind(a, x.g.Some?)
    ensures OfKind(AddToArchive(a, x), x.g.Some?)
    ensures AddToArchive(AddToArchive(a, x), x) == AddToArchive(a, x)
  {
    var keep := y => !Dominates(x, y);
    var r := AddToArchive(a, x);
    var s := Survivors(a, x);
    forall i | 0 <= i < |r| ensures r[i].g.Some? == x.g.Some? {
      if i < |s| { assert r[i] == s[i]; }
    }
    FilterKeepsAll(s, keep);
    if |r| == |s| + 1 {
      assert r == s + [x];
      assert !Blocked(s, x);
      FilterConcat(s, [x], keep);
      if Dominates(x, x) {
        assert Filter([x], keep) == [];
        assert Survivors(r, x) == s;
      } else {
        assert Filter([x], keep) == [x];
        assert Survivors(r, x) == r;
        assert IsTheSame(x, r[|r| - 1]);
      }
    } else {
      assert r == s && |a| > 0 && Blocked(s, x);
      assert Survivors(r, x) == r;
    }
  }

  /** Insert the points of `xs` one after the other (the loop closing `__initialize_archive`). */
  function AddAll(a: seq<Point>, xs: seq<Point>): (r: seq<Point>)
    requires forall i :: 0 <= i < |xs| ==> OfKind(a, xs[i].g.Some?) && xs[i].g.Some? == xs[0].g.Some?
    ensures |xs| > 0 ==> |r| >= 1
    ensures |xs| == 0 ==> r == a
    ensures forall i :: 0 <= i < |xs| ==> OfKind(r, xs[i].g.Some?)
    decreases |xs|
  {
    if |xs| == 0 then a
    else
      var a' := AddToArchive(a, xs[0]);
      assert OfKind(a', xs[0].g.Some?) by {
        var s := Survivors(a, xs[0]);
        forall i | 0 <= i < |a'| ensures a'[i].g.Some? == xs[0].g.Some? {
          if i < |s| { assert a'[i] == s[i]; }
        }
      }
      AddAll(a', xs[1..])
  }

  /** Inserting legal points one by one keeps the archive invariant. */
  lemma {:induction false} AddAllPreservesValid(p: Problem, a: seq<Point>, xs: seq<Point>)
    requires ValidArchive(p, a)
    requires forall i :: 0 <= i < |xs| ==> Legal(p, xs[i])
    ensures forall i :: 0 <= i < |xs| ==> OfKind(a, xs[i].g.Some?) && xs[i].g.Some? == xs[0].g.Some?
    ensures ValidArchive(p, AddAll(a, xs))
    decreases |xs|
  {
    ValidArchiveOfKind(p, a);
    forall i | 0 <= i < |xs| ensures xs[i].g.Some? == (p.numConstraints > 0) {
      assert xs[i] == GetObjectives(p, xs[i].x);
    }
    if |xs| > 0 {
      AddPreservesValid(p, a, xs[0]);
      AddAllPreservesValid(p, AddToArchive(a, xs[0]), xs[1..]);
    }
  }

  /** `all(g <= 0 for g in s["g"])`; a point without constraint values counts as feasible. */
  predicate Feasible(s: Point)
  {
    match s.g
    case None => true
    case Some(g) => AllNonPositive(g)
  }

  /**
   * `__remove_infeasible`: on a constrained problem keep the feasible
   * members, in order; on an unconstrained one leave the archive alone.
   */
  function RemoveInfeasible(p: Problem, a: seq<Point>): (r: seq<Point>)
    requires p.numConstraints > 0 ==> OfKind(a, true)
    ensures p.numConstraints == 0 ==> r == a
    ensures IsSublist(r, a)
    ensures p.numConstraints > 0 ==> forall i :: 0 <= i < |r| ==> r[i] in a && Feasible(r[i])
    ensures forall i :: 0 <= i < |a| && Feasible(a[i]) ==> a[i] in r
  {
    if p.numConstraints > 0 then Filter(a, Feasible)
    else
      SublistOfItself(a);
      a
  }

  /** Removing the infeasible members keeps the archive invariant. */
  lemma RemoveInfeasiblePreservesValid(p: Problem, a: seq<Point>)
    requires ValidArchive(p, a)
    ensures p.numConstraints > 0 ==> OfKind(a, true)
    ensures ValidArchive(p, RemoveInfeasible(p, a))
  {
    ValidArchiveOfKind(p, a);
    var r := RemoveInfeasible(p, a);
    SublistApart(r, a);
    SublistMembers(r, a);
    forall i | 0 <= i < |r| ensures Legal(p, r[i]) {
      assert r[i] in a;
    }
  }
}

=== FILE: clustering.dfy ===
/**
 * Archive reduction (`__archive_clustering`).  The reduction operator
 * `do_clustering` is modelled by what it can do, not by its distance
 * computation: it deletes members one at a time while the list is longer
 * than the limit, and may stop early, so it returns a sub-list that is
 * either its argument or still has at least `limit` members.
 */
module Clustering {
  import opened Seqs
  import opened Problems
  import opened Dominance
  import opened Archive

  /** `all(g > 0 for g in s["g"])`: every constraint of a constrained point violated. */
  predicate FullyViolated(s: Point)
  {
    s.g.Some? && AllPositive(s.g.value)
  }

  /** `[s for s in archive if all(g <= 0 for g in s["g"])]` */
  function FeasibleMembers(a: seq<Point>): seq<Point>
  {
    Filter(a, Feasible)
  }

  /** `[s for s in archive if all(g > 0 for g in s["g"])]` */
  function ViolatedMembers(a: seq<Point>): seq<Point>
  {
    Filter(a, FullyViolated)
  }

  /** Every constrained member has at least one constraint value. */
  predicate NonEmptyViolations(a: seq<Point>)
  {
    forall i :: 0 <= i < |a| ==> a[i].g.Some? ==> |a[i].g.value| > 0
  }

  /** `do_clustering(archive, limit)`, by its effect on the list. */
  method DoClustering(a: seq<Point>, limit: int) returns (r: seq<Point>)
    ensures IsSublist(r, a)
    ensures |a| <= limit ==> r == a
    ensures |a| > limit ==> limit <= |r|
  {
    SublistOfItself(a);
    if |a| <= limit {
      r := a;
    } else {
      r :| IsSublist(r, a) && limit <= |r|;
    }
  }

  /**
   * The constrained reduction when the feasible members fit: `r` is a
   * sub-list of the fully violated members followed by all feasible ones;
   * the violated ones are all kept when they fit in the room left, and at
   * least that room of them otherwise.
   */
  predicate ViolatedThenFeasible(a: seq<Point>, hardLimit: int, r: seq<Point>)
  {
    var feasible, violated := FeasibleMembers(a), ViolatedMembers(a);
    var n := |r| - |feasible|;
    && 0 <= n
    && r[n..] == feasible
    && IsSublist(r[..n], violated)
    && (|violated| <= hardLimit - |feasible| ==> r[..n] == violated)
    && (|violated| > hardLimit - |feasible| ==> n >= hardLimit - |feasible|)
  }

  /**
   * `__archive_clustering`.  Without constraints the archive itself is
   * reduced to the hard limit.  With constraints the members whose every
   * constraint is satisfied and those whose every constraint is violated
   * are separated (members with some of each are dropped); if the feasible
   * ones exceed the hard limit only they are kept, reduced to the limit;
   * otherwise all feasible ones are kept, after the violated ones reduced to
   * the room that is left.
   */
  method ArchiveClustering(p: Problem, a: seq<Point>, hardLimit: int) returns (r: seq<Point>)
    requires p.numConstraints > 0 ==> OfKind(a, true)
    ensures forall i :: 0 <= i < |r| ==> r[i] in a
    ensures p.numConstraints == 0 ==> IsSublist(r, a) && (|a| <= hardLimit ==> r == a) && (|a| > hardLimit ==> hardLimit <= |r|)
    ensures p.numConstraints > 0 ==> forall i :: 0 <= i < |r| ==> Feasible(r[i]) || FullyViolated(r[i])
    ensures p.numConstraints > 0 && |FeasibleMembers(a)| > hardLimit ==>
              IsSublist(r, FeasibleMembers(a)) && hardLimit <= |r|
    ensures p.numConstraints > 0 && |FeasibleMembers(a)| <= hardLimit ==>
              ViolatedThenFeasible(a, hardLimit, r)
    ensures MutuallyApart(a) && NonEmptyViolations(a) ==> MutuallyApart(r)
  {
    if p.numConstraints > 0 {
      var feasible := FeasibleMembers(a);
      var nonFeasible := ViolatedMembers(a);
      if |feasible| > hardLimit {
        feasible := DoClustering(feasible, hardLimit);
        SublistMembers(feasible, FeasibleMembers(a));
        r := feasible;
        if MutuallyApart(a) {
          SublistApart(FeasibleMembers(a), a);
          SublistApart(r, FeasibleMembers(a));
        }
      } else {
        nonFeasible := DoClustering(nonFeasible, hardLimit - |feasible|);
        r := nonFeasible + feasible;
        assert r[|nonFeasible|..] == feasible;
        assert r[..|nonFeasible|] == nonFeasible;
        JoinedPartitions(a, nonFeasible);
      }
    } else {
      r := DoClustering(a, hardLimit);
      SublistMembers(r, a);
      if MutuallyApart(a) {
        SublistApart(r, a);
      }
    }
  }

  /** Reduction keeps the archive invariant of a run. */
  lemma ClusteringKeepsValid(p: Problem, a: seq<Point>, r: seq<Point>)
    requires ValidOutputs(p)
    requires ValidArchive(p, a)
    requires forall i :: 0 <= i < |r| ==> r[i] in a
    requires MutuallyApart(a) && NonEmptyViolations(a) ==> MutuallyApart(r)
    ensures ValidArchive(p, r)
  {
    forall i | 0 <= i < |a| ensures a[i].g.Some? ==> |a[i].g.value| > 0 {
      LegalShape(p, a[i]);
    }
    forall i | 0 <= i < |r| ensures Legal(p, r[i]) {
      var k :| 0 <= k < |a| && a[k] == r[i];
    }
  }

  /** The violated members kept, followed by all feasible members: old members of both kinds, apart. */
  lemma JoinedPartitions(a: seq<Point>, nonFeasible: seq<Point>)
    requires IsSublist(nonFeasible, ViolatedMembers(a))
    ensures forall i :: 0 <= i < |nonFeasible + FeasibleMembers(a)| ==>
              var y := (nonFeasible + FeasibleMembers(a))[i];
              y in a && (Feasible(y) || FullyViolated(y))
    ensures MutuallyApart(a) && NonEmptyViolations(a) ==> MutuallyApart(nonFeasible + FeasibleMembers(a))
  {
    var feasible := FeasibleMembers(a);
    var r := nonFeasible + feasible;
    SublistMembers(nonFeasible, ViolatedMembers(a));
    forall i | 0 <= i < |r| ensures r[i] in a && (Feasible(r[i]) || FullyViolated(r[i])) {
      if i < |nonFeasible| {
        assert r[i] == nonFeasible[i];
      } else {
        assert r[i] == feasible[i - |nonFeasible|];
      }
    }
    if MutuallyApart(a) && NonEmptyViolations(a) {
      ApartDistinct(a);
      SublistDistinct(ViolatedMembers(a), a);
      SublistDistinct(nonFeasible, ViolatedMembers(a));
      SublistDistinct(feasible, a);
      forall i, j | 0 <= i < |nonFeasible| && 0 <= j < |feasible|
        ensures nonFeasible[i] != feasible[j]
      {
        var v := nonFeasible[i];
        assert v in a;
        var k :| 0 <= k < |a| && a[k] == v;
        assert |v.g.value| > 0 && v.g.value[0] > 0.0;
        assert !Feasible(v);
      }
      DistinctConcat(nonFeasible, feasible);
      ApartFromMembers(r, a);
    }
  }
}

=== FILE: configuration.dfy ===
/** The optimizer's configuration and its validation (`__parameters_check`). */
module Configuration {
  import opened Wrappers

  datatype Config = Config(
    archiveHardLimit: int,
    archiveSoftLimit: int,
    archiveGamma: int,
    hillClimbingIterations: int,
    initialTemperature: real,
    finalTemperature: real,
    coolingFactor: real,
    annealingIterations: int,
    earlyTerminationWindow: int)

  /** The defaults of `AMOSAConfig()`. */
  function DefaultConfig(): Config
  {
    Config(20, 50, 2, 500, 500.0, 0.000001, 0.9, 500, 0)
  }

  /** One error per check, in the order the checks are made. */
  datatype ConfigError =
    | HardAboveSoft
    | NegativeHillClimbingIterations
    | GammaBelowOne
    | NoAnnealingIterations
    | FinalTemperatureNotPositive
    | InitialNotAboveFinal
    | CoolingFactorOutOfRange

  /** The position of the check that reports `e`. */
  function Rank(e: ConfigError): nat
  {
    match e
    case HardAboveSoft => 0
    case NegativeHillClimbingIterations => 1
    case GammaBelowOne => 2
    case NoAnnealingIterations => 3
    case FinalTemperatureNotPositive => 4
    case InitialNotAboveFinal => 5
    case CoolingFactorOutOfRange => 6
  }

  /** Configuration `c` breaks the rule that error `e` reports. */
  predicate Violates(c: Config, e: ConfigError)
  {
    match e
    case HardAboveSoft => c.archiveHardLimit > c.archiveSoftLimit
    case NegativeHillClimbingIterations => c.hillClimbingIterations < 0
    case GammaBelowOne => c.archiveGamma < 1
    case NoAnnealingIterations => c.annealingIterations < 1
    case FinalTemperatureNotPositive => c.finalTemperature <= 0.0
    case InitialNotAboveFinal => c.initialTemperature <= c.finalTemperature
    case CoolingFactorOutOfRange => !(0.0 < c.coolingFactor < 1.0)
  }

  /**
   * `__parameters_check`: the first broken rule, in the order of the checks,
   * is reported (the source raises a RuntimeError for it).
   */
  function ParametersCheck(c: Config): (r: Outcome<ConfigError>)
    ensures r.Pass? ==> forall e :: !Violates(c, e)
    ensures r.Fail? ==> Violates(c, r.error) && forall e :: Rank(e) < Rank(r.error) ==> !Violates(c, e)
  {
    if c.archiveHardLimit > c.archiveSoftLimit then Fail(HardAboveSoft)
    else if c.hillClimbingIterations < 0 then Fail(NegativeHillClimbingIterations)
    else if c.archiveGamma < 1 then Fail(GammaBelowOne)
    else if c.annealingIterations < 1 then Fail(NoAnnealingIterations)
    else if c.finalTemperature <= 0.0 then Fail(FinalTemperatureNotPositive)
    else if c.initialTemperature <= c.finalTemperature then Fail(InitialNotAboveFinal)
    else if c.coolingFactor <= 0.0 || c.coolingFactor >= 1.0 then Fail(CoolingFactorOutOfRange)
    else Pass
  }

  /** The accepted configurations, field by field. */
  lemma AcceptedConfigurations(c: Config)
    ensures ParametersCheck(c).Pass? <==>
              && c.archiveHardLimit <= c.archiveSoftLimit
              && c.hillClimbingIterations >= 0
              && c.archiveGamma >= 1
              && c.annealingIterations >= 1
              && c.finalTemperature > 0.0
              && c.initialTemperature > c.finalTemperature
              && 0.0 < c.coolingFactor < 1.0
  {
    if !ParametersCheck(c).Pass? {
      assert Violates(c, ParametersCheck(c).error);
    }
  }

  lemma DefaultsAccepted()
    ensures ParametersCheck(DefaultConfig()).Pass?
  {
    AcceptedConfigurations(DefaultConfig());
  }

  /**
   * The settings the engine keeps from a configuration (`AMOSA(config)`):
   * the early-termination window is taken from the number of annealing
   * iterations, not from the configured window.
   */
  function EngineSettings(c: Config): Config
  {
    c.(earlyTerminationWindow := c.annealingIterations)
  }
}

=== FILE: cooling.dfy ===
/**
 * The cooling step that closes each temperature step of `minimize`, and
 * the geometric schedule it produces.
 */
module Cooling {
  import opened Configuration

  /** Python's slice `phy[-w:]`. */
  function Suffix(phy: seq<real>, w: int): (r: seq<real>)
    ensures |r| <= |phy| && r == phy[|phy| - |r|..]
    ensures w > 0 ==> |r| == if w < |phy| then w else |phy|
  {
    if w > 0 then (if w >= |phy| then phy else phy[|phy| - w..])
    else if -w >= |phy| then []
    else phy[-w..]
  }

  /** Python's `==` between a list and a number: a list never equals a number. */
  function ListEqualsScalar(l: seq<real>, v: real): bool
  {
    false
  }

  /**
   * The temperature after a temperature step: cool by the factor, unless an
   * early-termination window is set and the last `w` values of the
   * diversity history "equal" zero, in which case jump to the final
   * temperature.
   */
  function CoolingStep(t: real, s: Config, phy: seq<real>): real
  {
    if s.earlyTerminationWindow == 0 then t * s.coolingFactor
    else if ListEqualsScalar(Suffix(phy, s.earlyTerminationWindow), 0.0) then s.finalTemperature
    else t * s.coolingFactor
  }

  /**
   * For an accepted configuration the window is at least one, so the
   * early-termination comparison is always made, and it never holds: every
   * temperature step multiplies the temperature by the cooling factor.
   */
  lemma CoolingAlwaysCools(c: Config, t: real, phy: seq<real>)
    requires ParametersCheck(c).Pass?
    ensures EngineSettings(c).earlyTerminationWindow >= 1
    ensures CoolingStep(t, EngineSettings(c), phy) == t * c.coolingFactor
    ensures t > 0.0 ==> 0.0 < CoolingStep(t, EngineSettings(c), phy) < t
  {
    assert !Violates(c, NoAnnealingIterations);
    assert !Violates(c, CoolingFactorOutOfRange);
    if t > 0.0 {
      assert t * c.coolingFactor < t * 1.0;
    }
  }

  /** The temperature facts an accepted configuration guarantees. */
  lemma AcceptedSchedule(c: Config)
    requires ParametersCheck(c).Pass?
    ensures 0.0 < c.finalTemperature < c.initialTemperature
    ensures 0.0 < c.coolingFactor < 1.0
  {
    assert !Violates(c, FinalTemperatureNotPositive);
    assert !Violates(c, InitialNotAboveFinal);
    assert !Violates(c, CoolingFactorOutOfRange);
  }

  /** The temperature of the geometric schedule after `k` cooling steps. */
  function Temperature(c: Config, k: nat): real
  {
    c.initialTemperature * Pow(c.coolingFactor, k)
  }

  /** After `k` steps from `t0` the temperature is `t0 * cf^k`; one more cooling step gives `t0 * cf^(k + 1)`. */
  lemma ScheduleStep(c: Config, t: real, k: nat, phy: seq<real>)
    requires ParametersCheck(c).Pass?
    requires t == Temperature(c, k)
    ensures CoolingStep(t, EngineSettings(c), phy) == Temperature(c, k + 1)
  {
    CoolingAlwaysCools(c, t, phy);
    var t0, cf, pk := c.initialTemperature, c.coolingFactor, Pow(c.coolingFactor, k);
    assert Pow(cf, k + 1) == cf * pk;
    assert (t0 * pk) * cf == t0 * (cf * pk);
  }

  function Pow(b: real, k: nat): real
  {
    if k == 0 then 1.0 else b * Pow(b, k - 1)
  }

  lemma {:induction false} PowPositive(b: real, k: nat)
    requires b > 0.0
    ensures Pow(b, k) > 0.0
  {
    if k > 0 {
      PowPositive(b, k - 1);
    }
  }

  /** Powers of a factor in (0, 1) do not increase. */
  lemma {:induction false} PowDecreasing(cf: real, i: nat, j: nat)
    requires 0.0 < cf < 1.0
    requires i <= j
    ensures Pow(cf, j) <= Pow(cf, i)
    decreases j - i
  {
    if i < j {
      PowDecreasing(cf, i, j - 1);
      PowPositive(cf, j - 1);
      MulMonotone(Pow(cf, j - 1), 1.0, cf);
    }
  }

  /** The schedule `t0 * cf^k` does not increase with `k`. */
  lemma ScheduleDecreasing(t0: real, cf: real, i: nat, j: nat)
    requires t0 > 0.0 && 0.0 < cf < 1.0
    requires i <= j
    ensures t0 * Pow(cf, j) <= t0 * Pow(cf, i)
  {
    PowDecreasing(cf, i, j);
    MulMonotone(t0, Pow(cf, i), Pow(cf, j));
  }

  lemma MulMonotone(c: real, a: real, b: real)
    requires c >= 0.0 && a >= b
    ensures c * a >= c * b
  {
    assert c * a - c * b == c * (a - b);
  }

  /** Bernoulli's inequality. */
  lemma {:induction false} Bernoulli(q: real, k: nat)
    requires q >= 1.0
    ensures Pow(q, k) >= 1.0 + (k as real) * (q - 1.0)
  {
    if k > 0 {
      Bernoulli(q, k - 1);
      var prev := Pow(q, k - 1);
      var h := q - 1.0;
      var m := (k - 1) as real;
      var low := 1.0 + m * h;
      MulMonotone(q, prev, low);
      assert Pow(q, k) == q * prev;
      assert q * low == low + h * low;
      assert h * low == h + m * (h * h);
      assert h * h >= 0.0;
      assert m * (h * h) >= 0.0;
      assert (k as real) * h == m * h + h;
    }
  }

  lemma {:induction false} PowReciprocal(b: real, k: nat)
    requires b > 0.0
    ensures Pow(b, k) * Pow(1.0 / b, k) == 1.0
  {
    if k > 0 {
      PowReciprocal(b, k - 1);
      var u, v := Pow(b, k - 1), Pow(1.0 / b, k - 1);
      calc {
        Pow(b, k) * Pow(1.0 / b, k);
        (b * u) * ((1.0 / b) * v);
        (b * (1.0 / b)) * (u * v);
        1.0;
      }
    }
  }

  /**
   * From an initial temperature above a positive final one, a cooling
   * factor in (0, 1) brings the temperature to the final one or below
   * after finitely many steps.
   */
  lemma CoolingReachesFloor(t0: real, final: real, cf: real) returns (k: nat)
    requires 0.0 < final < t0
    requires 0.0 < cf < 1.0
    ensures t0 * Pow(cf, k) <= final
  {
    var q := 1.0 / cf;
    assert q > 1.0 by {
      assert q * cf == 1.0;
    }
    var ratio := t0 / final;
    assert ratio > 1.0 by {
      assert ratio * final == t0;
    }
    k := StepsAbove(ratio, q);
    var pq := Pow(q, k);
    PowReciprocal(cf, k);
    PowPositive(cf, k);
    ScaleBelow(t0, final, ratio, Pow(cf, k), pq);
  }

  /** A number of steps after which `q^k` exceeds `ratio`. */
  lemma StepsAbove(ratio: real, q: real) returns (k: nat)
    requires ratio > 1.0 && q > 1.0
    ensures Pow(q, k) > ratio
  {
    var h := q - 1.0;
    var bound := (ratio - 1.0) / h;
    assert bound * h == ratio - 1.0;
    k := bound.Floor + 1;
    var kr := k as real;
    assert kr > bound;
    ProductAbove(kr, bound, h, ratio - 1.0);
    Bernoulli(q, k);
    assert Pow(q, k) >= 1.0 + kr * h;
    assert 1.0 + kr * h > 1.0 + (ratio - 1.0);
  }

  lemma ProductAbove(a: real, b: real, c: real, d: real)
    requires a > b && c > 0.0 && b * c == d
    ensures a * c > d
  {
    assert a * c - b * c == (a - b) * c;
  }

  /** `pc * pq == 1` and `pq > t0 / final` give `t0 * pc <= final`. */
  lemma ScaleBelow(t0: real, final: real, ratio: real, pc: real, pq: real)
    requires final > 0.0 && ratio == t0 / final
    requires pc > 0.0 && pc * pq == 1.0 && pq > ratio
    ensures t0 * pc <= final
  {
    assert t0 == ratio * final;
    assert ratio * pc < pq * pc by {
      assert pq * pc - ratio * pc == (pq - ratio) * pc;
    }
    assert t0 * pc == final * (ratio * pc);
    assert final * (ratio * pc) < final * (pq * pc) by {
      assert final * (pq * pc) - final * (ratio * pc) == final * (pq * pc - ratio * pc);
    }
  }
}

=== FILE: dominance.dfy ===
/**
 * The dominance comparator and the decision-vector equality test.
 *
 * The element-wise tests follow Python's `zip`, which stops at the shorter
 * of its two arguments.  For a constrained point the comparator is the
 * three-way disjunction of the source as written; its first disjunct tests
 * that every OBJECTIVE of `x` is <= 0, where the accompanying comment speaks
 * of `x` being feasible (every constraint value <= 0).
 */
module Dominance {
  import opened Wrappers
  import opened Problems

  /** `all(i <= j for i, j in zip(a, b))` */
  predicate AllLe(a: seq<real>, b: seq<real>)
  {
    forall i :: 0 <= i < |a| && i < |b| ==> a[i] <= b[i]
  }

  /** `any(i < j for i, j in zip(a, b))` */
  predicate AnyLt(a: seq<real>, b: seq<real>)
  {
    exists i :: 0 <= i < |a| && i < |b| && a[i] < b[i]
  }

  /** Pareto order on vectors: no worse anywhere, strictly better somewhere. */
  predicate ParetoLess(a: seq<real>, b: seq<real>)
  {
    AllLe(a, b) && AnyLt(a, b)
  }

  /** `all(i <= 0 for i in a)`: every constraint satisfied. */
  predicate AllNonPositive(a: seq<real>)
  {
    forall i :: 0 <= i < |a| ==> a[i] <= 0.0
  }

  /** `any(i > 0 for i in a)`: some constraint violated. */
  predicate AnyPositive(a: seq<real>)
  {
    exists i :: 0 <= i < |a| && a[i] > 0.0
  }

  /** `all(i > 0 for i in a)`: every constraint violated. */
  predicate AllPositive(a: seq<real>)
  {
    forall i :: 0 <= i < |a| ==> a[i] > 0.0
  }

  /**
   * `dominates(x, y)`.  A point without constraint values is compared on its
   * objectives alone.  A constrained `x` against a `y` without constraint
   * values makes the source raise a TypeError; no operation of this model
   * compares points of two kinds, and the comparator answers false there.
   */
  predicate Dominates(x: Point, y: Point)
  {
    match x.g
    case None => ParetoLess(x.f, y.f)
    case Some(xg) =>
      match y.g
      case None => false
      case Some(yg) =>
        || (AllNonPositive(x.f) && AnyPositive(yg))
        || (AnyPositive(xg) && AnyPositive(yg) && ParetoLess(xg, yg))
        || (AllNonPositive(xg) && AllNonPositive(yg) && ParetoLess(x.f, y.f))
  }

  /** `is_the_same(x, y)`: equal decision vectors. */
  predicate IsTheSame(x: Point, y: Point)
  {
    x.x == y.x
  }

  /** `not_the_same(x, y)`. */
  predicate NotTheSame(x: Point, y: Point)
  {
    x.x != y.x
  }

  /** Python's `==` on lists: equal lengths and equal elements position by position. */
  lemma SameIsElementwise(x: Point, y: Point)
    ensures IsTheSame(x, y) <==> |x.x| == |y.x| && forall i :: 0 <= i < |x.x| ==> x.x[i] == y.x[i]
  {
  }

  /** `not_the_same` is exactly the negation of `is_the_same`, and both are symmetric. */
  lemma NotTheSameIsComplement(x: Point, y: Point)
    ensures NotTheSame(x, y) <==> !IsTheSame(x, y)
    ensures IsTheSame(x, y) <==> IsTheSame(y, x)
  {
  }

  /** On vectors of one length the Pareto order is "component-wise <= and not equal". */
  lemma ParetoLessIsStrictComponentwise(a: seq<real>, b: seq<real>)
    requires |a| == |b|
    ensures ParetoLess(a, b) <==> (forall i :: 0 <= i < |a| ==> a[i] <= b[i]) && a != b
  {
    if (forall i :: 0 <= i < |a| ==> a[i] <= b[i]) && a != b {
      var k :| 0 <= k < |a| && a[k] != b[k];
      assert a[k] < b[k];
    }
  }

  lemma ParetoTransitive(a: seq<real>, b: seq<real>, c: seq<real>)
    requires |a| == |b| == |c|
    requires ParetoLess(a, b) && ParetoLess(b, c)
    ensures ParetoLess(a, c)
  {
    var k :| 0 <= k < |a| && k < |b| && a[k] < b[k];
    assert a[k] < c[k];
  }

  /** Unconstrained dominance is irreflexive: no point dominates itself. */
  lemma UnconstrainedIrreflexive(x: Point)
    requires x.g.None?
    ensures !Dominates(x, x)
  {
  }

  /** Unconstrained dominance is asymmetric. */
  lemma UnconstrainedAsymmetric(x: Point, y: Point)
    requires x.g.None? && y.g.None?
    ensures Dominates(x, y) ==> !Dominates(y, x)
  {
    if Dominates(x, y) {
      var k :| 0 <= k < |x.f| && k < |y.f| && x.f[k] < y.f[k];
      assert !AllLe(y.f, x.f);
    }
  }

  /**
   * Unconstrained dominance between points with the same number of
   * objectives: every objective of `x` is <= that of `y`, and the objective
   * vectors differ.
   */
  lemma UnconstrainedDominance(x: Point, y: Point)
    requires x.g.None?
    requires |x.f| == |y.f|
    ensures Dominates(x, y) <==> (forall i :: 0 <= i < |x.f| ==> x.f[i] <= y.f[i]) && x.f != y.f
  {
    ParetoLessIsStrictComponentwise(x.f, y.f);
  }

  /** Unconstrained dominance is transitive on points with one number of objectives. */
  lemma UnconstrainedTransitive(x: Point, y: Point, z: Point)
    requires x.g.None? && y.g.None?
    requires |x.f| == |y.f| == |z.f|
    requires Dominates(x, y) && Dominates(y, z)
    ensures Dominates(x, z)
  {
    ParetoTransitive(x.f, y.f, z.f);
  }

  /**
   * A constrained point dominates itself exactly when all its objectives are
   * <= 0 and one of its constraints is violated: the first disjunct of the
   * comparator then applies to the pair (x, x).
   */
  lemma ConstrainedSelfDomination(x: Point)
    requires x.g.Some?
    ensures Dominates(x, x) <==> AllNonPositive(x.f) && AnyPositive(x.g.value)
  {
    assert !ParetoLess(x.g.value, x.g.value);
    assert !ParetoLess(x.f, x.f);
  }

  /** Between two feasible constrained points the comparator is the Pareto order on objectives. */
  lemma FeasibleRegime(x: Point, y: Point)
    requires x.g.Some? && y.g.Some?
    requires AllNonPositive(x.g.value) && AllNonPositive(y.g.value)
    ensures Dominates(x, y) <==> ParetoLess(x.f, y.f)
    ensures Dominates(x, y) ==> !Dominates(y, x)
  {
    assert !AnyPositive(y.g.value) && !AnyPositive(x.g.value);
    if Dominates(x, y) {
      var k :| 0 <= k < |x.f| && k < |y.f| && x.f[k] < y.f[k];
      assert !AllLe(y.f, x.f);
    }
  }
}

=== FILE: problems.dfy ===
/**
 * The problem capability and the solution record.  A problem declares its
 * variables (type and bounds per position), its numbers of objectives and
 * constraints, and an `evaluate` operation that the optimizer treats as a
 * black box.  A solution point carries its decision vector `x`, its
 * objectives `f` and, for constrained problems only, its constraint values
 * `g` (a value <= 0 is satisfied, > 0 is violated by that margin).
 */
module Problems {
  import opened Wrappers

  datatype VarType = Integer | Real

  /** What `evaluate` writes into its output record. */
  datatype Output = Output(f: seq<real>, g: seq<real>)

  datatype Problem = Problem(
    numVariables: nat,
    types: seq<VarType>,
    lowerBound: seq<real>,
    upperBound: seq<real>,
    numObjectives: nat,
    numConstraints: nat,
    evaluate: seq<real> -> Output)

  /** A candidate solution; `g` is `None` exactly when the problem is unconstrained. */
  datatype Point = Point(x: seq<real>, f: seq<real>, g: Option<seq<real>>)

  /** The value is a whole number (an INTEGER variable holds a Python `int`). */
  predicate IsInt(v: real)
  {
    v.Floor as real == v
  }

  /** One type and one bound pair per variable, lower <= upper, whole bounds for INTEGER variables. */
  predicate ValidBounds(p: Problem)
  {
    && |p.types| == p.numVariables
    && |p.lowerBound| == p.numVariables
    && |p.upperBound| == p.numVariables
    && forall i :: 0 <= i < p.numVariables ==>
         && p.lowerBound[i] <= p.upperBound[i]
         && (p.types[i] == Integer ==> IsInt(p.lowerBound[i]) && IsInt(p.upperBound[i]))
  }

  /** `evaluate` fills one objective per declared objective and one value per declared constraint. */
  ghost predicate ValidOutputs(p: Problem)
  {
    forall v :: |v| == p.numVariables ==>
                && |p.evaluate(v).f| == p.numObjectives
                && (p.numConstraints > 0 ==> |p.evaluate(v).g| == p.numConstraints)
  }

  ghost predicate ValidProblem(p: Problem)
  {
    ValidBounds(p) && ValidOutputs(p)
  }

  /** Value `v` is admissible for variable `i`: within its bounds, and whole when it is INTEGER. */
  predicate Within(p: Problem, i: nat, v: real)
  {
    && i < |p.types| && i < |p.lowerBound| && i < |p.upperBound|
    && p.lowerBound[i] <= v <= p.upperBound[i]
    && (p.types[i] == Integer ==> IsInt(v))
  }

  predicate InBounds(p: Problem, x: seq<real>)
  {
    |x| == p.numVariables && forall i :: 0 <= i < |x| ==> Within(p, i, x[i])
  }

  /**
   * `get_objectives`: the point for decision vector `x`, with the objectives
   * and (for a constrained problem) the constraint values that `evaluate` writes.
   */
  function GetObjectives(p: Problem, x: seq<real>): (s: Point)
    ensures s.x == x
    ensures s.g.Some? <==> p.numConstraints > 0
    ensures s.f == p.evaluate(x).f
    ensures s.g.Some? ==> s.g.value == p.evaluate(x).g
  {
    var out := p.evaluate(x);
    Point(x, out.f, if p.numConstraints > 0 then Some(out.g) else None)
  }

  /** A point the optimizer can hold: in bounds and carrying the evaluation of its own decision vector. */
  predicate Legal(p: Problem, s: Point)
  {
    InBounds(p, s.x) && s == GetObjectives(p, s.x)
  }

  /** Under the declared output sizes, a constrained point has at least one constraint value. */
  lemma LegalShape(p: Problem, s: Point)
    requires ValidOutputs(p)
    requires Legal(p, s)
    ensures |s.f| == p.numObjectives
    ensures s.g.Some? <==> p.numConstraints > 0
    ensures s.g.Some? ==> |s.g.value| == p.numConstraints > 0
  {
    assert s.f == p.evaluate(s.x).f;
  }

  /** `lower_point`: the problem's lower bounds, evaluated. */
  function LowerPoint(p: Problem): (s: Point)
    requires ValidBounds(p)
    ensures Legal(p, s)
    ensures forall i :: 0 <= i < |s.x| ==> s.x[i] == p.lowerBound[i]
  {
    GetObjectives(p, p.lowerBound)
  }

  /** `upper_point`: the problem's upper bounds, evaluated. */
  function UpperPoint(p: Problem): (s: Point)
    requires ValidBounds(p)
    ensures Legal(p, s)
    ensures forall i :: 0 <= i < |s.x| ==> s.x[i] == p.upperBound[i]
  {
    GetObjectives(p, p.upperBound)
  }

  /** The difference and the sum of whole numbers are whole. */
  lemma IntArithmetic(a: real, b: real)
    requires IsInt(a) && IsInt(b)
    ensures IsInt(a - b) && IsInt(a + b)
  {
    var m, n := a.Floor, b.Floor;
    var d, t := m - n, m + n;
    assert a - b == d as real;
    assert (d as real).Floor == d;
    assert a + b == t as real;
    assert (t as real).Floor == t;
  }
}

=== FILE: search.dfy ===
/**
 * The search moves: choosing a direction, the adaptive step along it, the
 * random perturbation used by the annealer, hill climbing, and the random
 * starting point.  Every random draw is a nondeterministic choice among the
 * values the draw can produce.  A loop that redraws until a draw is nonzero
 * is modelled by the values it can exit with: the nonzero values of the
 * range.
 */
module Search {
  import opened Wrappers
  import opened Problems
  import opened Dominance

  /**
   * `hill_climbing_direction(problem, c_d)`: a variable index and a sign;
   * when a previous index is given the index is redrawn until it differs,
   * which terminates only if another index exists.
   */
  method HillClimbingDirection(p: Problem, previous: Option<nat>) returns (d: nat, up: int)
    requires p.numVariables >= 1
    requires previous.Some? ==> p.numVariables >= 2 || previous.value >= p.numVariables
    ensures d < p.numVariables
    ensures up == 1 || up == -1
    ensures previous.Some? ==> d != previous.value
  {
    if * {
      up := 1;
    } else {
      up := -1;
    }
    if previous.None? {
      assert 0 < p.numVariables;
      d :| d < p.numVariables;
    } else {
      var other: nat := if previous.value == 0 then 1 else 0;
      assert other < p.numVariables && other != previous.value;
      d :| d < p.numVariables && d != previous.value;
    }
  }

  /** `(up == -1 and lower_bound == 0) or (up == 1 and upper_bound == 0)`: no room in direction `up`. */
  predicate AtBound(p: Problem, x: seq<real>, d: nat, up: int)
    requires ValidBounds(p) && |x| == p.numVariables && d < p.numVariables
  {
    || (up == -1 && p.lowerBound[d] - x[d] == 0.0)
    || (up == 1 && p.upperBound[d] - x[d] == 0.0)
  }

  /** A draw from `[lo, hi]` that the redraw loop accepts: a nonzero one. */
  predicate NonzeroIn(v: real, lo: real, hi: real)
  {
    lo <= v <= hi && v != 0.0
  }

  /** A draw from `[lo, hi]`. */
  predicate Between(lo: real, v: real, hi: real)
  {
    lo <= v <= hi
  }

  /** A draw from `[lo, hi)`. */
  predicate BelowUpper(lo: real, v: real, hi: real)
  {
    lo <= v < hi
  }

  /** Some variable has a range of more than one value, so a perturbation can move. */
  predicate Movable(p: Problem)
  {
    ValidBounds(p) && exists d :: 0 <= d < p.numVariables && p.lowerBound[d] < p.upperBound[d]
  }

  /** `y` equals `x` except possibly at index `d`. */
  predicate OnlyCoordinate(x: seq<real>, y: seq<real>, d: nat)
  {
    |x| == |y| && d < |x| && forall i :: 0 <= i < |x| && i != d ==> x[i] == y[i]
  }

  /**
   * The step drawn for variable `d` in direction `up`: a whole number drawn
   * with `randrange` for an INTEGER variable, a `uniform` draw for a REAL one,
   * redrawn while it is zero.
   */
  method DrawStep(p: Problem, x: seq<real>, d: nat, up: int) returns (step: real)
    requires ValidBounds(p) && InBounds(p, x) && d < p.numVariables
    requires up == 1 || up == -1
    requires !AtBound(p, x, d, up)
    ensures step != 0.0
    ensures up == 1 ==> 0.0 < step <= p.upperBound[d] - x[d]
    ensures up == -1 ==> p.lowerBound[d] - x[d] <= step < 0.0
    ensures p.types[d] == Integer ==> IsInt(step)
  {
    var lo := p.lowerBound[d] - x[d];
    var hi := p.upperBound[d] - x[d];
    assert Within(p, d, x[d]);
    if p.types[d] == Integer {
      IntArithmetic(p.lowerBound[d], x[d]);
      IntArithmetic(p.upperBound[d], x[d]);
      var k: int;
      if up == -1 {
        assert lo.Floor <= -1;
        assert NonzeroIn((-1) as real, lo, 0.0);
        k :| NonzeroIn(k as real, lo, 0.0);
      } else {
        assert hi.Floor >= 1;
        assert NonzeroIn(1 as real, 0.0, hi);
        k :| NonzeroIn(k as real, 0.0, hi);
      }
      step := k as real;
      assert (k as real).Floor == k;
      assert if up == -1 then NonzeroIn(step, lo, 0.0) else NonzeroIn(step, 0.0, hi);
    } else if up == -1 {
      assert NonzeroIn(lo / 2.0, lo, 0.0);
      step :| NonzeroIn(step, lo, 0.0);
    } else {
      assert NonzeroIn(hi / 2.0, 0.0, hi);
      step :| NonzeroIn(step, 0.0, hi);
    }
    assert if up == -1 then NonzeroIn(step, lo, 0.0) else NonzeroIn(step, 0.0, hi);
  }

  /** Moving variable `d` by a legal step keeps the vector in bounds. */
  lemma StepInBounds(p: Problem, x: seq<real>, d: nat, step: real)
    requires ValidBounds(p) && InBounds(p, x) && d < p.numVariables
    requires p.lowerBound[d] <= x[d] + step <= p.upperBound[d]
    requires p.types[d] == Integer ==> IsInt(step)
    ensures InBounds(p, x[d := x[d] + step])
    ensures OnlyCoordinate(x, x[d := x[d] + step], d)
  {
    var y := x[d := x[d] + step];
    forall i | 0 <= i < |y| ensures Within(p, i, y[i]) {
      assert Within(p, i, x[i]);
      if i == d && p.types[d] == Integer {
        IntArithmetic(x[d], step);
      }
    }
  }

  /**
   * `hill_climbing_adaptive_step(problem, s, d, up)`: with no room in
   * direction `up` the point is left alone; otherwise variable `d` moves by
   * a nonzero step in direction `up`, staying within its bounds, and the
   * point is re-evaluated.
   */
  method HillClimbingAdaptiveStep(p: Problem, s: Point, d: nat, up: int) returns (r: Point)
    requires ValidBounds(p) && InBounds(p, s.x) && d < p.numVariables
    requires up == 1 || up == -1
    ensures AtBound(p, s.x, d, up) ==> r == s
    ensures !AtBound(p, s.x, d, up) ==>
              && Legal(p, r)
              && OnlyCoordinate(s.x, r.x, d)
              && (if up == 1 then r.x[d] > s.x[d] else r.x[d] < s.x[d])
  {
    if AtBound(p, s.x, d, up) {
      return s;
    }
    var step := DrawStep(p, s.x, d, up);
    StepInBounds(p, s.x, d, step);
    r := GetObjectives(p, s.x[d := s.x[d] + step]);
  }

  /**
   * `random_perturbation(problem, s)`: a copy of `s` in which one variable
   * has moved by a nonzero step within its bounds, re-evaluated.  Directions
   * are redrawn until one has room and yields a nonzero step, which
   * terminates only if some variable has a non-degenerate range.
   */
  method RandomPerturbation(p: Problem, s: Point) returns (z: Point)
    requires ValidBounds(p) && InBounds(p, s.x)
    requires Movable(p)
    ensures Legal(p, z)
    ensures exists d: nat :: OnlyCoordinate(s.x, z.x, d) && z.x[d] != s.x[d]
  {
    var d0 :| 0 <= d0 < p.numVariables && p.lowerBound[d0] < p.upperBound[d0];
    // the draw made before the retry loop, whose result the loop overwrites
    var first, firstUp := HillClimbingDirection(p, None);
    assert Within(p, d0, s.x[d0]);
    var up0 := if s.x[d0] == p.upperBound[d0] then -1 else 1;
    assert !AtBound(p, s.x, d0, up0);
    var d: nat, up: int :| d < p.numVariables && (up == 1 || up == -1) && !AtBound(p, s.x, d, up);
    var step := DrawStep(p, s.x, d, up);
    StepInBounds(p, s.x, d, step);
    z := GetObjectives(p, s.x[d := s.x[d] + step]);
    assert OnlyCoordinate(s.x, z.x, d) && z.x[d] != s.x[d];
  }

  /** Each point of `path` dominates, and differs from, the one before it. */
  ghost predicate ImprovementPath(path: seq<Point>, first: Point, last: Point)
  {
    && |path| >= 1
    && path[0] == first
    && path[|path| - 1] == last
    && forall i :: 0 <= i < |path| - 1 ==> Dominates(path[i + 1], path[i]) && NotTheSame(path[i + 1], path[i])
  }

  /** Without constraints and with one number of objectives, the end of an improvement path dominates its start. */
  lemma {:induction false} ImprovementPathDominates(path: seq<Point>, first: Point, last: Point)
    requires ImprovementPath(path, first, last)
    requires forall i :: 0 <= i < |path| ==> path[i].g.None? && |path[i].f| == |first.f|
    ensures |path| > 1 ==> Dominates(last, first)
    decreases |path|
  {
    if |path| > 1 {
      var prefix := path[..|path| - 1];
      var mid := prefix[|prefix| - 1];
      assert Dominates(last, mid) by {
        assert path[|path| - 1] == last && path[|path| - 2] == mid;
      }
      if |prefix| > 1 {
        ImprovementPathDominates(prefix, first, mid);
        UnconstrainedTransitive(last, mid, first);
      }
    }
  }

  /**
   * `hill_climbing(problem, x, max_iterations)`: keep a step that yields a
   * dominating point with another decision vector, otherwise pick a new
   * direction; stop after the given number of iterations.
   */
  method HillClimbing(p: Problem, x: Point, maxIterations: int) returns (r: Point)
    requires ValidBounds(p) && Legal(p, x)
    requires p.numVariables >= 1
    requires p.numVariables >= 2 || maxIterations <= 0
    ensures Legal(p, r)
    ensures exists path :: ImprovementPath(path, x, r)
    ensures maxIterations <= 0 ==> r == x
    ensures p.numConstraints == 0 && ValidOutputs(p) ==> r == x || Dominates(r, x)
  {
    var d: nat, up: int := HillClimbingDirection(p, None);
    r := x;
    ghost var path := [x];
    var iterations := if maxIterations > 0 then maxIterations else 0;
    for i := 0 to iterations
      invariant Legal(p, r)
      invariant ImprovementPath(path, x, r)
      invariant forall j :: 0 <= j < |path| ==> Legal(p, path[j])
      invariant d < p.numVariables && (up == 1 || up == -1)
      invariant maxIterations <= 0 ==> r == x
    {
      var y := HillClimbingAdaptiveStep(p, r, d, up);
      if Dominates(y, r) && NotTheSame(y, r) {
        path := path + [y];
        r := y;
      } else {
        d, up := HillClimbingDirection(p, Some(d));
      }
    }
    if p.numConstraints == 0 && ValidOutputs(p) {
      forall j | 0 <= j < |path| ensures path[j].g.None? && |path[j].f| == |x.f| {
        LegalShape(p, path[j]);
        LegalShape(p, x);
      }
      ImprovementPathDominates(path, x, r);
    }
  }

  /**
   * One coordinate of `random_point`: the bound itself when the range is
   * degenerate, else a `randrange(l, u)` draw (which never yields `u`) for
   * an INTEGER variable or a `uniform(l, u)` draw for a REAL one.
   */
  method DrawCoordinate(p: Problem, i: nat) returns (v: real)
    requires ValidBounds(p) && i < p.numVariables
    ensures Within(p, i, v)
    ensures p.types[i] == Integer && p.lowerBound[i] < p.upperBound[i] ==> v < p.upperBound[i]
  {
    var l, u := p.lowerBound[i], p.upperBound[i];
    if l == u {
      v := l;
    } else if p.types[i] == Integer {
      assert BelowUpper(l, l.Floor as real, u);
      var k: int :| BelowUpper(l, k as real, u);
      v := k as real;
      assert v.Floor == k;
      assert BelowUpper(l, v, u);
    } else {
      assert Between(l, l, u);
      v :| Between(l, v, u);
      assert Between(l, v, u);
    }
  }

  /** `random_point(problem)`: every variable drawn independently within its bounds. */
  method RandomPoint(p: Problem) returns (s: Point)
    requires ValidBounds(p)
    ensures Legal(p, s)
    ensures forall i :: 0 <= i < p.numVariables && p.types[i] == Integer && p.lowerBound[i] < p.upperBound[i] ==>
              s.x[i] < p.upperBound[i]
  {
    var x: seq<real> := [];
    for i := 0 to p.numVariables
      invariant |x| == i
      invariant forall j :: 0 <= j < i ==> Within(p, j, x[j])
      invariant forall j :: 0 <= j < i && p.types[j] == Integer && p.lowerBound[j] < p.upperBound[j] ==>
                  x[j] < p.upperBound[j]
    {
      var v := DrawCoordinate(p, i);
      x := x + [v];
    }
    s := GetObjectives(p, x);
  }
}

=== FILE: seqs.dfy ===
/** Order-preserving sub-lists and the list-comprehension filter `[y for y in a if keep(y)]`. */
module Seqs {

  /** `r` is `a` with some elements deleted and the others kept in their order. */
  predicate IsSublist<T(==)>(r: seq<T>, a: seq<T>)
    decreases |a|
  {
    if |r| == 0 then true
    else if |a| == 0 then false
    else (r[0] == a[0] && IsSublist(r[1..], a[1..])) || IsSublist(r, a[1..])
  }

  /** No element occurs twice. */
  predicate Distinct<T(==)>(s: seq<T>)
  {
    forall i, j :: 0 <= i < j < |s| ==> s[i] != s[j]
  }

  /** The list comprehension `[y for y in a if keep(y)]`. */
  function Filter<T(==)>(a: seq<T>, keep: T -> bool): (r: seq<T>)
    ensures IsSublist(r, a)
    ensures forall i :: 0 <= i < |r| ==> r[i] in a && keep(r[i])
    ensures forall i :: 0 <= i < |a| && keep(a[i]) ==> a[i] in r
    ensures |r| <= |a|
    decreases |a|
  {
    if |a| == 0 then []
    else
      assert a == [a[0]] + a[1..];
      if keep(a[0]) then [a[0]] + Filter(a[1..], keep) else Filter(a[1..], keep)
  }

  lemma {:induction false} SublistOfItself<T>(a: seq<T>)
    ensures IsSublist(a, a)
    decreases |a|
  {
    if |a| > 0 {
      SublistOfItself(a[1..]);
    }
  }

  /** Every element of a sub-list is an element of the list it was taken from. */
  lemma {:induction false} SublistMembers<T>(r: seq<T>, a: seq<T>)
    requires IsSublist(r, a)
    ensures forall i :: 0 <= i < |r| ==> r[i] in a
    ensures |r| <= |a|
    decreases |a|
  {
    if |r| > 0 {
      assert |a| > 0;
      assert a == [a[0]] + a[1..];
      if r[0] == a[0] && IsSublist(r[1..], a[1..]) {
        SublistMembers(r[1..], a[1..]);
        assert r == [r[0]] + r[1..];
      } else {
        SublistMembers(r, a[1..]);
      }
    }
  }

  /** Deleting elements cannot create a repetition. */
  lemma {:induction false} SublistDistinct<T>(r: seq<T>, a: seq<T>)
    requires IsSublist(r, a)
    requires Distinct(a)
    ensures Distinct(r)
    decreases |a|
  {
    if |r| > 0 {
      assert Distinct(a[1..]) by {
        forall i, j | 0 <= i < j < |a[1..]| ensures a[1..][i] != a[1..][j] {
          assert a[1..][i] == a[i + 1] && a[1..][j] == a[j + 1];
        }
      }
      if r[0] == a[0] && IsSublist(r[1..], a[1..]) {
        SublistDistinct(r[1..], a[1..]);
        SublistMembers(r[1..], a[1..]);
        forall i, j | 0 <= i < j < |r| ensures r[i] != r[j] {
          if i == 0 {
            assert r[j] == r[1..][j - 1];
            assert r[j] in a[1..];
            var k :| 0 <= k < |a[1..]| && a[1..][k] == r[j];
            assert a[k + 1] == r[j];
          } else {
            assert r[i] == r[1..][i - 1] && r[j] == r[1..][j - 1];
          }
        }
      } else {
        SublistDistinct(r, a[1..]);
      }
    }
  }

  /** A filter keeps a list unchanged when it keeps each of its elements. */
  lemma {:induction false} FilterKeepsAll<T>(a: seq<T>, keep: T -> bool)
    requires forall i :: 0 <= i < |a| ==> keep(a[i])
    ensures Filter(a, keep) == a
    decreases |a|
  {
    if |a| > 0 {
      FilterKeepsAll(a[1..], keep);
      assert a == [a[0]] + a[1..];
    }
  }

  /** Filtering a concatenation filters each part. */
  lemma {:induction false} FilterConcat<T>(u: seq<T>, v: seq<T>, keep: T -> bool)
    ensures Filter(u + v, keep) == Filter(u, keep) + Filter(v, keep)
    decreases |u|
  {
    if |u| > 0 {
      assert (u + v)[1..] == u[1..] + v;
      FilterConcat(u[1..], v, keep);
    } else {
      assert u + v == v;
    }
  }

  /** Joining two repetition-free lists with no common element gives a repetition-free list. */
  lemma DistinctConcat<T>(u: seq<T>, v: seq<T>)
    requires Distinct(u) && Distinct(v)
    requires forall i, j :: 0 <= i < |u| && 0 <= j < |v| ==> u[i] != v[j]
    ensures Distinct(u + v)
  {
    forall i, j | 0 <= i < j < |u + v| ensures (u + v)[i] != (u + v)[j] {
      if j < |u| {
        assert (u + v)[i] == u[i] && (u + v)[j] == u[j];
      } else if i < |u| {
        assert (u + v)[i] == u[i] && (u + v)[j] == v[j - |u|];
      } else {
        assert (u + v)[i] == v[i - |u|] && (u + v)[j] == v[j - |u|];
      }
    }
  }
}

=== FILE: test_problem.dfy ===
/**
 * The problem of the repository's `test.py` (two INTEGER variables in
 * [0, 100] whose values are the objectives, no constraints), and what the
 * archive rules give on it; then two constrained points on which the
 * comparator, as written, makes a point dominate itself.
 */
module Examples {
  import opened Wrappers
  import opened Seqs
  import opened Problems
  import opened Dominance
  import opened Archive
  import opened Search

  function TestProblem(): Problem
  {
    Problem(2, [Integer, Integer], [0.0, 0.0], [100.0, 100.0], 2, 0, v => Output(v, []))
  }

  /** The origin, `lower_point` of the test problem. */
  function Origin(): Point
  {
    LowerPoint(TestProblem())
  }

  lemma TestProblemIsValid()
    ensures ValidProblem(TestProblem()) && Movable(TestProblem())
  {
    var p := TestProblem();
    assert IsInt(0.0) && IsInt(100.0) by {
      assert (0 as real).Floor == 0 && (100 as real).Floor == 100;
    }
    assert 0 <= 0 < p.numVariables && p.lowerBound[0] < p.upperBound[0];
  }

  /** A legal point of the test problem is its own objective vector, without constraint values. */
  lemma TestPointShape(s: Point)
    requires Legal(TestProblem(), s)
    ensures s == Point(s.x, s.x, None)
    ensures |s.x| == 2 && 0.0 <= s.x[0] && 0.0 <= s.x[1]
  {
    assert Within(TestProblem(), 0, s.x[0]) && Within(TestProblem(), 1, s.x[1]);
  }

  lemma OriginShape()
    ensures Origin() == Point([0.0, 0.0], [0.0, 0.0], None)
  {
    var o := Origin();
    TestPointShape(o);
    assert o.x[0] == 0.0 && o.x[1] == 0.0;
    assert o.x == [0.0, 0.0];
  }

  /** The origin dominates every other legal point of the test problem. */
  lemma OriginDominatesEveryOtherPoint(s: Point)
    requires Legal(TestProblem(), s)
    requires s.x != Origin().x
    ensures Dominates(Origin(), s)
  {
    OriginShape();
    TestPointShape(s);
    if s.x[0] == 0.0 {
      assert s.x[1] != 0.0;
      assert Origin().f[1] < s.f[1];
    } else {
      assert Origin().f[0] < s.f[0];
    }
  }

  /** The evaluated point of the test problem at `[a, b]`. */
  function TestPoint(a: real, b: real): Point
  {
    GetObjectives(TestProblem(), [a, b])
  }

  /** `[10, 20]` dominates `[15, 25]`; `[10, 25]` and `[15, 20]` do not dominate each other. */
  lemma TestPointComparisons()
    ensures Dominates(TestPoint(10.0, 20.0), TestPoint(15.0, 25.0))
    ensures !Dominates(TestPoint(10.0, 25.0), TestPoint(15.0, 20.0))
    ensures !Dominates(TestPoint(15.0, 20.0), TestPoint(10.0, 25.0))
  {
    assert TestPoint(10.0, 20.0).f[0] < TestPoint(15.0, 25.0).f[0];
    assert TestPoint(10.0, 25.0).f[1] > TestPoint(15.0, 20.0).f[1];
    assert TestPoint(15.0, 20.0).f[0] > TestPoint(10.0, 25.0).f[0];
  }

  /** The only legal point of the test problem at the origin is the origin. */
  lemma AtOrigin(s: Point)
    requires Legal(TestProblem(), s)
    requires s.x == Origin().x
    ensures s == Origin()
  {
    OriginShape();
    TestPointShape(s);
  }

  /** An archive of the test problem that holds the origin holds nothing else. */
  lemma ArchiveWithOrigin(a: seq<Point>)
    requires ValidArchive(TestProblem(), a)
    requires Origin() in a
    ensures a == [Origin()]
  {
    var k :| 0 <= k < |a| && a[k] == Origin();
    if |a| > 1 {
      var i := if k == 0 then 1 else 0;
      assert Apart(a[k], a[i]);
      OriginDominatesEveryOtherPoint(a[i]);
      assert false;
    }
  }

  /** Inserting the origin into any archive of the test problem leaves the origin alone. */
  lemma InsertingOriginAbsorbs(a: seq<Point>)
    requires ValidArchive(TestProblem(), a)
    ensures OfKind(a, false)
    ensures AddToArchive(a, Origin()) == [Origin()]
  {
    var o := Origin();
    OriginShape();
    ValidArchiveOfKind(TestProblem(), a);
    var s := Survivors(a, o);
    forall i | 0 <= i < |s| ensures s[i] == o {
      var j :| 0 <= j < |a| && a[j] == s[i];
      if s[i].x != o.x {
        OriginDominatesEveryOtherPoint(a[j]);
      }
      AtOrigin(a[j]);
    }
    ApartDistinct(a);
    SublistDistinct(s, a);
    if |s| > 1 {
      assert false;
    }
    if |s| == 1 {
      assert IsTheSame(o, s[0]);
      assert Blocked(s, o);
    }
  }

  /** Every objective <= 0, one constraint violated: a point the comparator lets dominate itself. */
  function SelfDominating(): Point
  {
    Point([0.0], [-1.0], Some([1.0]))
  }

  function Bystander(): Point
  {
    Point([1.0], [1.0], Some([0.0]))
  }

  /**
   * Unlike the unconstrained case (`Archive.ReinsertIsNoOp`), re-inserting a
   * member of a constrained archive can move it: the self-dominating member
   * removes itself and is appended again.
   */
  lemma ConstrainedReinsertMoves()
    ensures Dominates(SelfDominating(), SelfDominating())
    ensures MutuallyApart([SelfDominating(), Bystander()])
    ensures AddToArchive([SelfDominating(), Bystander()], SelfDominating()) == [Bystander(), SelfDominating()]
  {
    var p, q := SelfDominating(), Bystander();
    assert AnyPositive(p.g.value) by {
      assert p.g.value[0] > 0.0;
    }
    assert !Dominates(p, q) && !Dominates(q, p) by {
      assert !AllNonPositive(q.f) by { assert q.f[0] > 0.0; }
      assert !AnyPositive(q.g.value);
      assert !AllNonPositive(p.g.value) by { assert p.g.value[0] > 0.0; }
    }
    var s := Survivors([p, q], p);
    assert s == [q] by {
      assert [p, q] == [p] + [q];
      assert Filter([p, q], y => !Dominates(p, y)) == Filter([q], y => !Dominates(p, y));
      assert [q][1..] == [];
    }
    assert !Blocked(s, p);
  }
}

=== FILE: wrappers.dfy ===
/** Failure-carrying datatypes used where the optimizer raises or returns nothing. */
module Wrappers {

  /** A value that may be absent, like Python's `None`. */
  datatype Option<+T> = None | Some(value: T)

  /** The outcome of an operation that either produces a value or raises an error. */
  datatype Result<+T, +E> = Success(value: T) | Failure(error: E)

  /** The outcome of a check that produces no value: it passes or fails with an error. */
  datatype Outcome<+E> = Pass | Fail(error: E)
}
